=== FILE: README.md ===
# Inbox uploader core, in Dafny

A model of the core of the "Inmobiliaria Inbox" tray application. The application watches an inbox
folder, queues every finished file for upload to the server, retries failed uploads with exponential
backoff, and shows its state and the most recent uploads in a system-tray menu. The model covers three
parts:

- **Upload manager and worker** (`uploader.dfy`, `worker.dfy`). The `UploadManager` is a FIFO of
  `(path, retries)` items plus a most-recent-first list of at most 15 upload records, and the
  "uploading" and "online" flags. The model covers `enqueue`, `add_recent` and `update_recent_status`.
  One pass of the `start_worker` loop is a step function. It takes the outcome of the health probe and
  of the upload as booleans, and returns the new state, the file operation requested (delete the file,
  or move it into the `Subidos` archive folder) and the seconds the loop then sleeps.
- **Candidate filter** (`watcher.dfy`). This covers `should_ignore`, the two-sample `is_file_ready`
  decision, the startup scan of the inbox, and the filter the debouncer callback applies to each event.
  Every answer the filesystem gives is an input: is-directory, is-regular-file, metadata sizes, and
  whether a listing or an entry could be read.
- **Tray status** (`tray.dfy`). This covers `determine_state`, the icon chosen per state,
  `truncate_name`, and the "recent files" submenu of at most ten entries.

Names are bytes. `utf8.dfy` defines well-formed UTF-8 and char boundaries, plus a lossy decoder
standing for `to_string_lossy`, which replaces each maximal invalid subpart with U+FFFD. `paths.dfy`
treats a path as its sequence of components, as `std::path` does on Unix. It defines `file_name`,
`parent`, `join`, `extension` and the archive folder `uploaded_subfolder`.

Records are looked up by display name (the file name), not by path, exactly as in the original.
Two consequences of that are kept in the model and proved:

- `Worker.NameCollisionMislabels`: a failure of one file can mark another file's record Failed.
- `Worker.RetryAfterRaceDuplicatesPath`: the retry `push_back` skips the duplicate check. A path that
  the watcher enqueues again while its upload is in flight ends up queued twice after a failure. So
  "no two queued items share a path" holds only while enqueues and worker passes do not overlap
  (`Worker.StepKeepsConsistent`).

`should_ignore` checks every component of the full path for "Subidos" (watcher.rs:50-56), not only the
part below the inbox. So an inbox that itself lies under a folder named "Subidos" ignores every file in
it, and the startup scan and the watcher queue nothing from it (`Watcher.InboxUnderArchiveHasNoCandidates`).

## Model

| member | source | states |
|---|---|---|
| Paths.UploadedSubfolder | src-tauri/src/config.rs:94-96 | the archive folder is the inbox joined with "Subidos": its parent is the inbox and its last component is "Subidos", which pins it to exactly that path |
| Paths.FileName | src-tauri/src/uploader.rs:70-72 | `Path::file_name`: present exactly when the last component is a normal name, and then it is that name |
| Paths.Parent | src-tauri/src/watcher.rs:123-124 | `Path::parent`: absent exactly when the path is empty or ends at the root; otherwise the path minus its last component, which added back gives the path again |
| Paths.Join | src-tauri/src/uploader.rs:178 | joining a name onto a path gives a path whose parent is that path and whose file name is that name; joining an empty name changes nothing |
| Paths.DisplayName | src-tauri/src/uploader.rs:70-74 | the display name is always UTF-8; it is the file name itself when that is UTF-8, and empty when the path has no file name |
| Paths.Extension | src-tauri/src/tray.rs:169-172 | `Path::extension` of a single name: the bytes after the last dot, which contain no dot; absent exactly when there is no dot after the first byte, or the name is ".." |
| Utf8.LossyIsValid | src-tauri/src/uploader.rs:70-74 | lossy decoding always yields UTF-8 |
| Utf8.LossyKeepsValid | src-tauri/src/uploader.rs:70-74 | lossy decoding leaves UTF-8 input unchanged |
| Utf8.LossyIdempotent | src-tauri/src/uploader.rs:70-74 | decoding twice is decoding once |
| Utf8.Lossy | src-tauri/src/uploader.rs:73 | `to_string_lossy` turns nothing into nothing and any non-empty name into a non-empty string, at most three bytes per input byte |
| Uploader.EvictOldest | src-tauri/src/uploader.rs:113-115 | the eviction loop leaves the first min(len, 15) records, in order |
| Uploader.AddRecent | src-tauri/src/uploader.rs:110-116 | the new record is first, the old ones follow shifted by one, and the list has at most 15 records; only the oldest are dropped |
| Uploader.UpdateRecentStatus | src-tauri/src/uploader.rs:118-123 | only the most recent record with the name takes the new status; names, timestamps and every other record stay; no match means no change |
| Uploader.UpdateTwice | src-tauri/src/uploader.rs:118-123 | two updates of the same name land on the same record, so only the second shows |
| Uploader.Enqueue | src-tauri/src/uploader.rs:59-83 | a queued path changes nothing; a new path goes to the tail with 0 retries, and its Pending record, named by its file name, heads the recent list |
| Uploader.EnqueueKeepsPathsDistinct | src-tauri/src/uploader.rs:62-65 | enqueuing never makes two queued items share a path |
| Uploader.EnqueueAllQueue | src-tauri/src/uploader.rs:59-83 | enqueuing distinct new paths one by one queues all of them in order |
| Uploader.EnqueueAllRecent | src-tauri/src/uploader.rs:110-116 | after enqueuing distinct new paths, the newest is first in the recent list; older records follow, cut at 15 |
| Watcher.NameText | src-tauri/src/watcher.rs:25-28 | the name is present exactly when the path has a file name and it is UTF-8 |
| Watcher.ShouldIgnore | src-tauri/src/watcher.rs:24-64 | the rule-by-rule method with early returns agrees with the declarative filter `Ignored`, in both directions |
| Watcher.DenyListIgnored | src-tauri/src/watcher.rs:8-14 | a file named like a system artefact is ignored wherever it lies |
| Watcher.ArchiveNeverCandidate | src-tauri/src/watcher.rs:50-56 | everything inside the archive folder of an inbox is ignored |
| Watcher.SuffixMatchIsCaseSensitive | src-tauri/src/watcher.rs:46-48 | "scan.TMP" is not caught by the ".tmp" rule: suffixes are compared byte for byte |
| Watcher.InboxUnderArchiveHasNoCandidates | src-tauri/src/watcher.rs:50-56 | the component check covers the whole path, so nothing in an inbox lying under a "Subidos" folder is a candidate |
| Watcher.CandidateShape | src-tauri/src/watcher.rs:24-64 | a path that passes has a UTF-8, non-hidden, unlisted name with no listed prefix or suffix, no "Subidos" component, and is not a directory |
| Watcher.IsFileReady | src-tauri/src/watcher.rs:67-81 | ready exactly when both size reads succeed, agree, and are non-zero; a zero size is never ready |
| Watcher.ScanCandidates | src-tauri/src/watcher.rs:86-92 | a path is kept exactly when some readable entry for it is a regular file that passes the filter |
| Watcher.ScanCandidatesAppend | src-tauri/src/watcher.rs:86-92 | the scan keeps directory order: scanning a listing in two parts concatenates the results |
| Watcher.ScanExistingFiles | src-tauri/src/watcher.rs:84-95 | the loop returns the scan's result, and nothing when the directory cannot be read |
| Watcher.ReadyPaths | src-tauri/src/watcher.rs:117-134 | a path is sent exactly when some event for it is of kind Any, passes the filter, is a regular file directly inside the inbox, and is ready |
| Watcher.HandleDebounced | src-tauri/src/watcher.rs:114-141 | the callback sends exactly those paths, in event order, and nothing when the debouncer reports an error |
| Watcher.ReadyPathsAppend | src-tauri/src/watcher.rs:117-134 | the callback keeps event order and repetitions: the paths sent for two consecutive runs of events are those of the first run followed by those of the second |
| Watcher.ReadyPathsAreInboxFiles | src-tauri/src/watcher.rs:118-127 | whatever is sent sits directly in the inbox, is outside the archive, and had two equal non-zero size readings |
| Worker.Backoff | src-tauri/src/uploader.rs:197-198 | the retry delay is 5·2^min(retries,6): between 5 and 320 s, at least 10 s once a failure is counted, and 320 s from 6 retries on |
| Worker.BackoffMonotone | src-tauri/src/uploader.rs:197-198 | the delay never shrinks as retries grow |
| Worker.BackoffDoubles | src-tauri/src/uploader.rs:197-198 | below the cap, each further failure doubles the delay |
| Worker.Disposal | src-tauri/src/uploader.rs:168-183 | an uploaded file is removed when so configured; otherwise it is moved into the archive folder under its display name |
| Worker.BeginUpload | src-tauri/src/uploader.rs:145-160 | the queue head is taken (FIFO), the in-flight flag is raised and its record is marked Uploading |
| Worker.FinishUpload | src-tauri/src/uploader.rs:162-215 | success disposes of the file with no wait; a failure below the budget re-queues at the tail with one more retry and waits the backoff; the tenth failure drops the item; the flag always ends lowered |
| Worker.BeginThenFinish | src-tauri/src/uploader.rs:160-213 | the outcome overwrites the Uploading mark on the same record and on no other |
| Worker.WorkerStep | src-tauri/src/uploader.rs:133-223 | the probe result is stored; offline sleeps 15 s and an empty queue sleeps 2 s, both leaving queue and records alone; after an upload nothing is in flight |
| Worker.StepSucceeds | src-tauri/src/uploader.rs:163-186 | a successful upload removes the head for good and asks for its disposal, with no wait |
| Worker.StepRequeues | src-tauri/src/uploader.rs:187-206 | a failure below the budget moves the head to the tail with one more retry and waits between 10 and 320 s |
| Worker.StepGivesUp | src-tauri/src/uploader.rs:207-214 | the failure that exhausts the budget drops the head, with no wait |
| Worker.StepRecordsOutcome | src-tauri/src/uploader.rs:160-213 | after an upload the file's record shows Success, Pending or Failed by outcome, and no other record changes |
| Worker.InitialIsConsistent | src-tauri/src/uploader.rs:49-56 | a new manager satisfies the queue invariant |
| Worker.EnqueueKeepsConsistent | src-tauri/src/uploader.rs:59-83 | enqueuing preserves the invariant: distinct paths, retries within budget, at most 15 records, nothing in flight |
| Worker.StepAddsNoPath | src-tauri/src/uploader.rs:145-196 | a worker pass never queues a path that was not queued before |
| Worker.RequeueHeadKeepsDistinct | src-tauri/src/uploader.rs:196 | moving the head to the tail keeps queued paths distinct |
| Worker.UploadKeepsConsistent | src-tauri/src/uploader.rs:145-215 | an uploading pass preserves the invariant |
| Worker.StepKeepsConsistent | src-tauri/src/uploader.rs:133-223 | every worker pass preserves the invariant |
| Worker.RetryAfterRaceDuplicatesPath | src-tauri/src/uploader.rs:196 | enqueuing a path during its own upload, followed by a failure, leaves the path queued twice |
| Worker.RaceLeavesOldUploading | src-tauri/src/uploader.rs:118-123 | when a path is enqueued again during its own upload, after its record was marked Uploading, the outcome lands on the new front record, and the older record with the same name keeps Uploading after the upload has ended, unless evicted |
| Worker.FailuresBelowBudgetRequeue | src-tauri/src/uploader.rs:190-206 | a lone file is put back after each of its first nine failures, with its retry count equal to the failures so far |
| Worker.FailuresBelowBudgetPending | src-tauri/src/uploader.rs:193-196 | meanwhile its record shows Pending and no other record changes |
| Worker.TenthFailureDrops | src-tauri/src/uploader.rs:190-214 | the tenth failure empties the queue and marks the record Failed |
| Worker.SuccessAfterFailures | src-tauri/src/uploader.rs:162-186 | a file that fails fewer than ten times and then uploads leaves the queue with a Success record, and its disposal is requested; no other record changes |
| Worker.ArchivedNeverCandidate | src-tauri/src/uploader.rs:173-181 | a file the worker moves to the archive is never a watcher candidate again |
| Worker.NameCollisionMislabels | src-tauri/src/uploader.rs:118-123 | when a same-named file is enqueued, the first file's final failure marks the newer file's record Failed |
| Tray.DetermineState | src-tauri/src/tray.rs:71-83 | Offline exactly when offline; Syncing(queue+1) exactly when online and uploading; Pending(queue) exactly when online, idle and queue non-empty; never NotAuthenticated |
| Tray.CountIsOutstandingFiles | src-tauri/src/tray.rs:75-81 | a shown count is at least 1 and counts every file not yet uploaded, including the one in flight |
| Tray.SyncingCountsFileInFlight | src-tauri/src/tray.rs:75-77 | during an upload the tray shows Syncing with the queue length from before the upload began |
| Tray.StateAfterIteration | src-tauri/src/tray.rs:71-83 | between worker passes the tray is never Syncing; it is Offline exactly when the probe failed, and Connected exactly when the queue is empty |
| Tray.EnqueueShowsPending | src-tauri/src/tray.rs:78-81 | enqueuing a new file while online and idle shows Pending with the count one higher |
| Tray.IconName | src-tauri/src/tray.rs:43-49 | syncing icon exactly for Syncing; offline icon exactly for Offline and NotAuthenticated; default icon exactly for Connected and Pending |
| Tray.IconOfManager | src-tauri/src/tray.rs:43-49 | read off the manager, the icon is offline exactly when offline, syncing exactly when uploading, and otherwise the default |
| Tray.SaturatingSub | src-tauri/src/tray.rs:173 | subtraction that stops at zero |
| Tray.KeptExtension | src-tauri/src/tray.rs:169-172 | the kept extension is text, and the name ends with a dot followed by it |
| Tray.TextKeepsExtension | src-tauri/src/tray.rs:169-172 | for a UTF-8 name the whole extension is kept |
| Tray.TruncateNameAsWritten | src-tauri/src/tray.rs:165-181 | short names are unchanged; otherwise it panics exactly when the stem budget `max ⊖ (ext+4)` is not a char boundary, and else returns the first `stem_max` bytes, then "...", then the extension (nothing when there is none) |
| Tray.TruncatedLength | src-tauri/src/tray.rs:173-178 | when the extension leaves room, a shortened name is exactly max-1 bytes: the byte reserved for a dot is never used |
| Tray.TruncateName | src-tauri/src/tray.rs:165-181 | corrected: short names are unchanged; otherwise the stem is cut at the last char boundary within the budget, and the result is at most max-1 bytes when the extension fits |
| Tray.TruncateNameKeepsText | src-tauri/src/tray.rs:165-181 | shortening text gives text, losing at most 3 bytes to a character that did not fit |
| Tray.TruncateNameAgrees | src-tauri/src/tray.rs:165-181 | whenever the code as written does not panic, it equals the corrected version |
| Tray.AccentedNamePanics | src-tauri/src/tray.rs:174 | "Escritura_compraventa_ñandú.pdf" is valid UTF-8 longer than 30 bytes, and shortening it as written panics |
| Tray.AccentedNameShortened | src-tauri/src/tray.rs:173-178 | the corrected version shortens it to "Escritura_compraventa_...pdf" |
| Tray.RecentMenu | src-tauri/src/tray.rs:124-145 | the placeholder alone exactly when nothing is recent; otherwise the first min(n, 10) records, in list order, each with its glyph, time and name shortened by the corrected `Tray.TruncateName` (the code as written panics instead; see `Tray.RecentMenuAsWritten`) |
| Tray.BuildRecentMenu | src-tauri/src/tray.rs:124-145 | the loop over `take(10).enumerate()` builds exactly that menu, with the corrected shortening |
| Tray.EntriesAsWritten | src-tauri/src/tray.rs:131-145 | the loop as written from position `from`: when no name panics, one line per remaining shown record, numbered consecutively from `from` |
| Tray.RecentMenuAsWritten | src-tauri/src/tray.rs:124-145 | the submenu as written: the placeholder alone exactly when nothing is recent; otherwise, when no shortening panics, min(n, 10) lines |
| Tray.StatusGlyph | src-tauri/src/tray.rs:132-137 | the status glyphs: ✓ exactly for Success, ✕ for Failed, ● for Pending, ↑ for Uploading |
| Tray.MenuNamesAreShortText | src-tauri/src/tray.rs:138 | a shown name is text; it is the file name when that fits in 30 bytes, at most 30 bytes when the extension leaves room, and at most 29 when it was shortened |
| Tray.EnqueuedFileHeadsMenu | src-tauri/src/tray.rs:131-138 | a newly enqueued file is the first menu entry, Pending; the earlier entries move down one |
| Tray.MenuAsWrittenAgrees | src-tauri/src/tray.rs:131-145 | building the menu as written panics exactly when one of the first ten names cannot be shortened; otherwise it equals the corrected menu |
| Tray.AccentedFileBreaksMenu | src-tauri/src/tray.rs:138 | enqueuing a file named "Escritura_compraventa_ñandú.pdf" makes the next menu rebuild panic as written |

## Left out

- Network I/O: `upload_file` and `check_server` (uploader.rs:228-295) are left out. Each enters the
  worker step as a boolean outcome. Authentication, MIME guessing, multipart encoding and timeouts go
  with them.
- Concurrency: `Arc`/`Mutex` locking and the threads of lib.rs are left out. The worker runs
  sequentially. A pass is split into `BeginUpload` and `FinishUpload`, so an enqueue can be placed
  between the Uploading mark (uploader.rs:160) and the outcome. `BeginUpload` makes the `pop_front`
  (uploader.rs:147), the raised flag (uploader.rs:159) and the Uploading mark (uploader.rs:160) one
  step.
- An enqueue between uploader.rs:147 and uploader.rs:160 is not modelled. The path is already off the
  queue, so it is enqueued again, and the Uploading mark then lands on the new front record while the
  older record of the same name stays Pending. `Worker.RaceLeavesOldUploading` covers only an enqueue
  after the mark.
- Tray reads that fall inside a pass are not modelled: between the pop (uploader.rs:147) and the raised
  flag (uploader.rs:159) the tray sees one file fewer and no upload; between the lowered flag
  (uploader.rs:191) and the re-queue (uploader.rs:196) it sees the failed file nowhere.
- Sleeps: `sleep` calls are not performed. A pass returns the seconds it would sleep. The 500 ms gap
  between the two size samples is left out; the two samples are inputs.
- Timestamps: `chrono::Local::now()` becomes an opaque string argument.
- The `notify` debouncer and the directory watch are left out. A batch of debounced events (or an
  error) is the input of the callback, and a failure to set up the watch is not modelled.
- Filesystem effects: `remove_file`, `create_dir_all` and `rename` become a requested `FileAction`.
  Their failures are only logged in the original, so they change no state.
- Tray UI: PNG decoding (`load_tray_icon`), tooltips, menu item construction and label formatting are
  left out. A menu entry keeps the glyph, shortened name and timestamp that the label is formatted
  from. The unused "tray-error" icon is left out.
- Paths are Unix-style component sequences. Windows prefixes are not modelled.
- Tray.KeptExtension: names are treated as a single file name, as every display name is. A name
  containing '/' would make `Path::new(name).extension()` look only at its last component, and that
  case is not modelled.
- lib.rs, auth.rs, commands.rs and the persistence in config.rs are out of scope: runtime wiring,
  keyring and HTTP login, thin command wrappers, and JSON files.
- The archive folder name "Subidos" is defined once (`Paths.Subidos`). The original spells it out in
  both config.rs and watcher.rs.
- The worker probes the server on every pass (uploader.rs:135), whatever the cached online flag says.
- Nothing checks a file's size before an upload, and there is no size ceiling.
- A recent-upload record carries no error message; a failure changes only its status.

## Findings

| source | as written | input that shows it | evidently intended | confidence | as-written member | corrected member |
|---|---|---|---|---|---|---|
| src-tauri/src/tray.rs:174 | `&name[..stem_max]` slices a `&str` at a byte count, which panics when that byte is inside a multi-byte character | a file named "Escritura_compraventa_ñandú.pdf" (33 bytes) shortened to 30: the stem budget is 23 bytes, and byte 23 is the second byte of "ñ"; the panic happens on the next tray refresh after the file is enqueued | cut the stem at the last char boundary within the budget, giving "Escritura_compraventa_...pdf" | not executed | Tray.TruncateNameAsWritten | Tray.TruncateName |

=== FILE: options.dfy ===
/** Optional values, for the `Option`s the original program returns. */
module Options {
  datatype Option<+T> = None | Some(value: T)
}

=== FILE: paths.dfy ===
/**
 Filesystem paths as Rust's `std::path` sees them on Unix: a path is the
 sequence of its (already normalised) components, and two paths are equal
 exactly when their component sequences are. Names are raw bytes (`OsStr`).
 */
module Paths {
  import opened Options
  import opened Utf8

  datatype Component = RootDir | CurDir | ParentDir | Normal(name: seq<Byte>)

  type Path = seq<Component>

  /** `Path::file_name`: the last component when it is a normal name. */
  function FileName(p: Path): (r: Option<seq<Byte>>)
    ensures r.Some? <==> |p| > 0 && p[|p| - 1].Normal?
    ensures r.Some? ==> Normal(r.value) == p[|p| - 1]
  {
    if |p| > 0 && p[|p| - 1].Normal? then Some(p[|p| - 1].name) else None
  }

  /** `Path::parent`: the path without its last component, absent for the
      empty path and for a path ending at the root. */
  function Parent(p: Path): (r: Option<Path>)
    ensures r.Some? <==> |p| > 0 && p[|p| - 1] != RootDir
    ensures r.Some? ==> r.value + [p[|p| - 1]] == p
  {
    if |p| > 0 && p[|p| - 1] != RootDir then Some(p[..|p| - 1]) else None
  }

  /** `PathBuf::join` with a single relative file name; joining the empty
      name leaves the components unchanged. */
  function Join(p: Path, name: seq<Byte>): (r: Path)
    ensures name != [] ==> Parent(r) == Some(p) && FileName(r) == Some(name)
    ensures name == [] ==> r == p
  {
    if name == [] then p else p + [Normal(name)]
  }

  /** Name of the archive folder inside the inbox (config.rs and watcher.rs
      spell it out separately; here it is defined once). */
  const Subidos: seq<Byte> := Ascii("Subidos")

  /** `uploaded_subfolder`: where uploaded files are moved. */
  function UploadedSubfolder(inbox: Path): (r: Path)
    ensures Parent(r) == Some(inbox) && Normal(Subidos) in r
    ensures FileName(r) == Some(Subidos)
  {
    Join(inbox, Subidos)
  }

  /** The display name of a queued file: its file name decoded lossily, or the
      empty string when the path has none (`unwrap_or_default`). */
  function DisplayName(p: Path): (r: seq<Byte>)
    ensures Valid(r)
    ensures FileName(p).Some? && Valid(FileName(p).value) ==> r == FileName(p).value
    ensures FileName(p).None? ==> r == []
  {
    match FileName(p)
    case None => []
    case Some(n) =>
      LossyIsValid(n);
      if Valid(n) then LossyKeepsValid(n); Lossy(n) else Lossy(n)
  }

  const Dot: Byte := 0x2E

  /** Position of the last occurrence of `b` in `s`. */
  function LastIndexOf(s: seq<Byte>, b: Byte): (r: Option<nat>)
    ensures r.Some? ==> r.value < |s| && s[r.value] == b
    ensures r.Some? ==> forall j :: r.value < j < |s| ==> s[j] != b
    ensures r.None? ==> forall j :: 0 <= j < |s| ==> s[j] != b
  {
    if |s| == 0 then None
    else if s[|s| - 1] == b then Some(|s| - 1)
    else LastIndexOf(s[..|s| - 1], b)
  }

  /** `Path::new(name).extension()` for a single file name: the bytes after
      the last dot, unless that dot is the first byte or the name is "..". */
  function Extension(name: seq<Byte>): (r: Option<seq<Byte>>)
    ensures r.Some? ==> exists d :: 0 < d < |name| && name[d] == Dot && name[d + 1..] == r.value
    ensures r.Some? ==> forall j :: |name| - |r.value| <= j < |name| ==> name[j] != Dot
    ensures r.None? ==> name == [Dot, Dot] || forall j :: 0 < j < |name| ==> name[j] != Dot
    ensures name == [Dot, Dot] ==> r.None?
  {
    if name == [Dot, Dot] then None
    else match LastIndexOf(name, Dot)
      case None => None
      case Some(d) => if d == 0 then None else Some(name[d + 1..])
  }
}

=== FILE: tray.dfy ===
/**
 What the tray shows: the state derived from the upload manager, the icon
 chosen for that state, and the "recent files" submenu, whose entries carry
 the file name shortened to 30 bytes with its extension kept.
 */
module Tray {
  import opened Options
  import opened Utf8
  import opened Paths
  import opened Uploader
  import Worker

  datatype TrayState = Connected | Syncing(count: nat) | Offline | Pending(count: nat) | NotAuthenticated

  /** `determine_state`: being offline hides everything else; an upload in
      flight counts itself on top of the files still queued. */
  function DetermineState(m: Manager): (s: TrayState)
    ensures s.Offline? <==> !m.isOnline
    ensures s.Syncing? <==> m.isOnline && m.isUploading
    ensures s.Syncing? ==> s.count == |m.queue| + 1
    ensures s.Pending? <==> m.isOnline && !m.isUploading && m.queue != []
    ensures s.Pending? ==> s.count == |m.queue|
    ensures !s.NotAuthenticated?
  {
    if !m.isOnline then Offline
    else if m.isUploading then Syncing(|m.queue| + 1)
    else if |m.queue| > 0 then TrayState.Pending(|m.queue|)
    else Connected
  }

  /** Whenever the tray shows a count, it is at least one, and it is the
      number of files not yet uploaded, the one in flight included. */
  lemma CountIsOutstandingFiles(m: Manager)
    requires DetermineState(m).Syncing? || DetermineState(m).Pending?
    ensures DetermineState(m).count >= 1
    ensures DetermineState(m).count == |m.queue| + (if m.isUploading then 1 else 0)
  {
  }

  /** While the head of the queue is being uploaded the tray counts it among
      the files being synced, so the count is the queue length before the
      upload began. */
  lemma SyncingCountsFileInFlight(m: Manager)
    requires m.isOnline && m.queue != []
    ensures DetermineState(Worker.BeginUpload(m).0) == Syncing(|m.queue|)
  {
  }

  /** Between two worker iterations the tray never shows Syncing: it shows
      Offline exactly when the probe failed, and otherwise Pending while
      files remain queued and Connected once the queue is empty. */
  lemma StateAfterIteration(m: Manager, settings: Worker.Settings, online: bool, uploaded: bool)
    requires Worker.Consistent(m)
    ensures var s := DetermineState(Worker.WorkerStep(m, settings, online, uploaded).next);
      && (s.Offline? <==> !online)
      && !s.Syncing?
      && (online ==> (s.Connected? <==> Worker.WorkerStep(m, settings, online, uploaded).next.queue == []))
  {
    Worker.StepKeepsConsistent(m, settings, online, uploaded);
  }

  /** Enqueuing a new file while online and idle makes the tray show it as
      pending. */
  lemma EnqueueShowsPending(m: Manager, path: Path, now: Timestamp)
    requires m.isOnline && !m.isUploading && !Queued(m.queue, path)
    ensures DetermineState(Enqueue(m, path, now)) == TrayState.Pending(|m.queue| + 1)
  {
  }

  const DefaultIcon: string := "tray-default"
  const SyncingIcon: string := "tray-syncing"
  const OfflineIcon: string := "tray-offline"

  /** The icon `update_tray` loads for a state. */
  function IconName(s: TrayState): (name: string)
    ensures name == SyncingIcon <==> s.Syncing?
    ensures name == OfflineIcon <==> s.Offline? || s.NotAuthenticated?
    ensures name == DefaultIcon <==> s.Connected? || s.Pending?
  {
    match s
    case Connected => DefaultIcon
    case Syncing(_) => SyncingIcon
    case Offline => OfflineIcon
    case Pending(_) => DefaultIcon
    case NotAuthenticated => OfflineIcon
  }

  /** The icon read straight off the manager: offline when the probe failed,
      syncing while an upload is in flight, the default icon otherwise. */
  lemma IconOfManager(m: Manager)
    ensures IconName(DetermineState(m)) == OfflineIcon <==> !m.isOnline
    ensures IconName(DetermineState(m)) == SyncingIcon <==> m.isOnline && m.isUploading
    ensures IconName(DetermineState(m)) == DefaultIcon <==> m.isOnline && !m.isUploading
  {
  }

  /** `usize::saturating_sub`. */
  function SaturatingSub(a: nat, b: nat): (r: nat)
    ensures b <= a ==> r + b == a
    ensures a < b ==> r == 0
  {
    if b <= a then a - b else 0
  }

  const Ellipsis: seq<Byte> := Ascii("...")

  /** The extension `truncate_name` keeps: `Path::extension` of the name when
      it is text, the empty string otherwise. The name is a single file name,
      as every display name is. */
  function KeptExtension(name: seq<Byte>): (ext: seq<Byte>)
    ensures Valid(ext)
    ensures ext != [] ==> |ext| + 1 < |name| && EndsWith(name, [Dot] + ext)
  {
    match Extension(name)
    case None => []
    case Some(e) =>
      var d :| 0 < d < |name| && name[d] == Dot && name[d + 1..] == e;
      assert name[|name| - |e| - 1..] == [Dot] + e;
      if Valid(e) then e else []
  }

  /** A name that is text has its whole extension kept: what follows an
      ASCII dot in a UTF-8 string is itself UTF-8. */
  lemma TextKeepsExtension(name: seq<Byte>)
    requires Valid(name) && Extension(name).Some?
    ensures KeptExtension(name) == Extension(name).value
  {
    var e := Extension(name).value;
    var d :| 0 < d < |name| && name[d] == Dot && name[d + 1..] == e;
    AfterAsciiIsBoundary(name, d);
    ValidSplit(name, d + 1);
  }

  /** How many bytes of the name `truncate_name` keeps in front of "...":
      room for the dot, the ellipsis and the extension is reserved, down to
      nothing. */
  function StemMax(name: seq<Byte>, maxLen: nat): nat {
    SaturatingSub(maxLen, |KeptExtension(name)| + 4)
  }

  /** `truncate_name` as written. `None` stands for the panic of the slice
      `&name[..stem_max]` when `stem_max` falls inside a multi-byte
      character. */
  function TruncateNameAsWritten(name: seq<Byte>, maxLen: nat): (r: Option<seq<Byte>>)
    ensures |name| <= maxLen ==> r == Some(name)
    ensures |name| > maxLen ==> (r.None? <==> !IsCharBoundary(name, StemMax(name, maxLen)))
    ensures r.Some? && |name| > maxLen ==>
      r.value == name[..StemMax(name, maxLen)] + Ellipsis + KeptExtension(name)
  {
    if |name| <= maxLen then Some(name)
    else
      var ext := KeptExtension(name);
      var stemMax := SaturatingSub(maxLen, |ext| + 4);
      var cut := if stemMax <= |name| then stemMax else |name|;
      if !IsCharBoundary(name, cut) then None
      else
        var stem := name[..cut];
        assert ext == [] ==> stem + Ellipsis + ext == stem + Ellipsis;
        Some(if ext == [] then stem + Ellipsis else stem + Ellipsis + ext)
  }

  /** When the extension leaves room, a name the code shortens comes out one
      byte under the limit: the budget reserves a byte for a dot that the
      result does not contain. */
  lemma TruncatedLength(name: seq<Byte>, maxLen: nat)
    requires |name| > maxLen && |KeptExtension(name)| + 4 <= maxLen
    requires TruncateNameAsWritten(name, maxLen).Some?
    ensures |TruncateNameAsWritten(name, maxLen).value| == maxLen - 1
  {
  }

  /** `truncate_name` as evidently intended: the stem is cut at the last
      character boundary that fits, so the result is always text. */
  function TruncateName(name: seq<Byte>, maxLen: nat): (r: seq<Byte>)
    ensures |name| <= maxLen ==> r == name
    ensures |name| > maxLen ==> exists k: nat :: (k <= StemMax(name, maxLen) && IsCharBoundary(name, k)
                                             && (forall j :: k < j <= StemMax(name, maxLen) ==> !IsCharBoundary(name, j))
                                             && r == name[..k] + Ellipsis + KeptExtension(name))
    ensures |name| > maxLen && |KeptExtension(name)| + 4 <= maxLen ==> |r| <= maxLen - 1
  {
    if |name| <= maxLen then name
    else name[..FloorCharBoundary(name, StemMax(name, maxLen))] + Ellipsis + KeptExtension(name)
  }

  /** Shortening text gives text, and it loses at most the three bytes of a
      character that did not fit. */
  lemma TruncateNameKeepsText(name: seq<Byte>, maxLen: nat)
    requires Valid(name)
    ensures Valid(TruncateName(name, maxLen))
    ensures |name| > maxLen && |KeptExtension(name)| + 4 <= maxLen ==> maxLen - 4 <= |TruncateName(name, maxLen)|
  {
    if |name| > maxLen {
      var stemMax := StemMax(name, maxLen);
      var cut := FloorCharBoundary(name, stemMax);
      ValidSplit(name, cut);
      AsciiIsValid(Ellipsis);
      ValidConcat(name[..cut], Ellipsis);
      ValidConcat(name[..cut] + Ellipsis, KeptExtension(name));
      FloorNear(name, stemMax);
    }
  }

  /** Wherever the code as written does not panic, it agrees with the
      corrected version. */
  lemma TruncateNameAgrees(name: seq<Byte>, maxLen: nat)
    requires TruncateNameAsWritten(name, maxLen).Some?
    ensures TruncateNameAsWritten(name, maxLen) == Some(TruncateName(name, maxLen))
  {
    if |name| > maxLen {
      var stemMax := StemMax(name, maxLen);
      assert IsCharBoundary(name, stemMax);
      assert FloorCharBoundary(name, stemMax) == stemMax;
    }
  }

  /** "Escritura_compraventa_ñandú.pdf" in UTF-8: 33 bytes, "ñ" and "ú" taking
      two bytes each. */
  const AccentedStem: seq<Byte> := Ascii("Escritura_compraventa_")
  const AccentedTail: seq<Byte> := [0xC3, 0xB1] + Ascii("and") + [0xC3, 0xBA]
  const PdfExtension: seq<Byte> := Ascii("pdf")
  const AccentedName: seq<Byte> := AccentedStem + AccentedTail + [Dot] + PdfExtension

  /** Where the bytes of that name lie. */
  lemma AccentedNameLayout()
    ensures |AccentedName| == 33
    ensures AccentedName[..22] == AccentedStem
    ensures AccentedName[22] == 0xC3 && AccentedName[23] == 0xB1
    ensures AccentedName[29] == Dot && AccentedName[30..] == PdfExtension
    ensures forall j :: 30 <= j < 33 ==> AccentedName[j] != Dot
  {
    AccentedNameHead();
    AccentedNameEnd();
  }

  lemma AccentedNameHead()
    ensures AccentedName[..22] == AccentedStem
    ensures AccentedName[22] == 0xC3 && AccentedName[23] == 0xB1
  {
    var prefix := AccentedStem + AccentedTail;
    assert |AccentedStem| == 22;
    assert AccentedName[..|prefix|] == prefix;
    assert prefix[..22] == AccentedStem;
  }

  lemma AccentedNameEnd()
    ensures |AccentedName| == 33
    ensures AccentedName[29] == Dot && AccentedName[30..] == PdfExtension
    ensures forall j :: 30 <= j < 33 ==> AccentedName[j] != Dot
  {
    assert |AccentedStem + AccentedTail| == 29;
    assert forall j :: 0 <= j < |PdfExtension| ==> PdfExtension[j] != Dot;
    DotThenExtension(AccentedStem + AccentedTail, PdfExtension);
  }

  /** A name made of some bytes, a dot and a dot-free extension. */
  lemma DotThenExtension(prefix: seq<Byte>, ext: seq<Byte>)
    requires forall j :: 0 <= j < |ext| ==> ext[j] != Dot
    ensures var name := prefix + [Dot] + ext;
      && |name| == |prefix| + 1 + |ext|
      && name[|prefix|] == Dot && name[|prefix| + 1..] == ext
      && forall j :: |prefix| < j < |name| ==> name[j] != Dot
  {
    var name := prefix + [Dot] + ext;
    forall j | |prefix| < j < |name|
      ensures name[j] != Dot
    {
      assert name[j] == ext[j - |prefix| - 1];
    }
  }

  lemma AccentedNameIsText()
    ensures Valid(AccentedName)
  {
    var n: seq<Byte> := [0xC3, 0xB1];
    var u: seq<Byte> := [0xC3, 0xBA];
    assert Valid(n) && Valid(u) by {
      assert n[2..] == [] && u[2..] == [];
    }
    AsciiIsValid(AccentedStem);
    AsciiIsValid(Ascii("and"));
    AsciiIsValid([Dot] + PdfExtension);
    ValidConcat(n, Ascii("and"));
    ValidConcat(n + Ascii("and"), u);
    ValidConcat(AccentedStem, AccentedTail);
    ValidConcat(AccentedStem + AccentedTail, [Dot] + PdfExtension);
    assert AccentedName == (AccentedStem + AccentedTail) + ([Dot] + PdfExtension);
  }

  /** The extension of that name is "pdf". */
  lemma AccentedNameExtension()
    ensures KeptExtension(AccentedName) == PdfExtension
  {
    AccentedNameLayout();
    var name := AccentedName;
    var e := Extension(name).value;
    var d :| 0 < d < |name| && name[d] == Dot && name[d + 1..] == e;
    assert d == 29;
    AsciiIsValid(PdfExtension);
  }

  /** The name as written would keep 23 bytes in front of the ellipsis, but
      the 24th byte is the second half of "ñ": the slice panics. */
  lemma AccentedNamePanics()
    ensures Valid(AccentedName) && |AccentedName| > MenuNameLen
    ensures TruncateNameAsWritten(AccentedName, MenuNameLen).None?
  {
    AccentedNameIsText();
    AccentedNameLayout();
    AccentedNameExtension();
    assert StemMax(AccentedName, MenuNameLen) == 23;
  }

  /** The corrected version backs off to the start of "ñ". */
  lemma AccentedNameShortened()
    ensures TruncateName(AccentedName, MenuNameLen) == AccentedStem + Ellipsis + PdfExtension
  {
    AccentedNameLayout();
    AccentedNameExtension();
    assert StemMax(AccentedName, MenuNameLen) == 23;
    assert IsCharBoundary(AccentedName, 22) && !IsCharBoundary(AccentedName, 23);
    assert FloorCharBoundary(AccentedName, 23) == 22;
  }

  /** At most this many recent uploads appear in the menu. */
  const MenuRecentLimit: nat := 10

  /** Byte length the menu shortens file names to. */
  const MenuNameLen: nat := 30

  /** The glyph in front of a recent upload. */
  function StatusGlyph(s: UploadStatus): (g: string)
    ensures g == "✓" <==> s == Success
    ensures g == "✕" <==> s == Failed
    ensures g == "●" <==> s == UploadStatus.Pending
    ensures g == "↑" <==> s == Uploading
  {
    match s
    case Success => "✓"
    case Failed => "✕"
    case Pending => "●"
    case Uploading => "↑"
  }

  /** A line of the "recent files" submenu: the placeholder shown when there
      are no recent uploads, or the `index`-th recent upload. */
  datatype MenuEntry = NoRecent | RecentEntry(index: nat, glyph: string, name: seq<Byte>, timestamp: Timestamp)

  function Entry(i: nat, u: RecentUpload): MenuEntry {
    RecentEntry(i, StatusGlyph(u.status), TruncateName(u.name, MenuNameLen), u.timestamp)
  }

  /** The submenu: the placeholder alone when nothing is recent, otherwise
      the first ten recent uploads, most recent first. Names are shortened by
      the corrected `TruncateName`; where the original's `truncate_name`
      panics instead, `RecentMenuAsWritten` is the submenu as written. */
  function RecentMenu(recent: seq<RecentUpload>): (entries: seq<MenuEntry>)
    ensures recent == [] <==> entries == [NoRecent]
    ensures recent != [] ==> |entries| == Min(|recent|, MenuRecentLimit)
    ensures recent != [] ==> forall i :: 0 <= i < |entries| ==> entries[i] == Entry(i, recent[i])
  {
    if recent == [] then [NoRecent]
    else
      var entries := seq(Min(|recent|, MenuRecentLimit), i requires 0 <= i < Min(|recent|, MenuRecentLimit) => Entry(i, recent[i]));
      assert entries[0].RecentEntry?;
      entries
  }

  /** The loop of `build_menu` over `recent.iter().take(10).enumerate()`,
      with names shortened by the corrected `TruncateName`. */
  method BuildRecentMenu(recent: seq<RecentUpload>) returns (entries: seq<MenuEntry>)
    ensures entries == RecentMenu(recent)
  {
    if |recent| == 0 {
      return [NoRecent];
    }
    entries := [];
    var i := 0;
    while i < |recent| && i < MenuRecentLimit
      invariant 0 <= i <= Min(|recent|, MenuRecentLimit)
      invariant |entries| == i
      invariant forall j :: 0 <= j < i ==> entries[j] == Entry(j, recent[j])
    {
      entries := entries + [Entry(i, recent[i])];
      i := i + 1;
    }
  }

  /** Every entry shows text and, when the name had to be shortened and its
      extension leaves room, fits in 30 bytes, or in 29 when it had to be
      shortened. */
  lemma MenuNamesAreShortText(recent: seq<RecentUpload>, i: nat)
    requires recent != [] && i < |RecentMenu(recent)|
    requires Valid(recent[i].name)
    ensures Valid(RecentMenu(recent)[i].name)
    ensures |recent[i].name| <= MenuNameLen ==> RecentMenu(recent)[i].name == recent[i].name
    ensures |KeptExtension(recent[i].name)| + 4 <= MenuNameLen ==> |RecentMenu(recent)[i].name| <= MenuNameLen
    ensures |recent[i].name| > MenuNameLen && |KeptExtension(recent[i].name)| + 4 <= MenuNameLen ==>
      |RecentMenu(recent)[i].name| <= MenuNameLen - 1
  {
    TruncateNameKeepsText(recent[i].name, MenuNameLen);
  }

  /** A newly enqueued file heads the menu as pending, and the entries that
      were shown move down by one. */
  lemma EnqueuedFileHeadsMenu(m: Manager, path: Path, now: Timestamp)
    requires !Queued(m.queue, path)
    ensures RecentMenu(Enqueue(m, path, now).recent)[0] == Entry(0, RecentUpload(DisplayName(path), UploadStatus.Pending, now))
    ensures forall i :: 0 < i < |RecentMenu(Enqueue(m, path, now).recent)| ==>
      RecentMenu(Enqueue(m, path, now).recent)[i] == Entry(i, m.recent[i - 1])
  {
  }

  /** The menu lines built by the code as written from position `from` on:
      `None` as soon as shortening a name panics. */
  function EntriesAsWritten(recent: seq<RecentUpload>, from: nat): (r: Option<seq<MenuEntry>>)
    requires from <= Min(|recent|, MenuRecentLimit)
    ensures r.Some? ==> |r.value| == Min(|recent|, MenuRecentLimit) - from
    ensures r.Some? ==> forall i :: 0 <= i < |r.value| ==> r.value[i].RecentEntry? && r.value[i].index == from + i
    decreases Min(|recent|, MenuRecentLimit) - from
  {
    if from == Min(|recent|, MenuRecentLimit) then Some([])
    else
      var shown := TruncateNameAsWritten(recent[from].name, MenuNameLen);
      var rest := EntriesAsWritten(recent, from + 1);
      if shown.None? || rest.None? then None
      else Some([RecentEntry(from, StatusGlyph(recent[from].status), shown.value, recent[from].timestamp)] + rest.value)
  }

  /** The submenu as the code builds it, with the original shortening:
      `None` when that shortening panics on one of the first ten names. */
  function RecentMenuAsWritten(recent: seq<RecentUpload>): (r: Option<seq<MenuEntry>>)
    ensures recent == [] <==> r == Some([NoRecent])
    ensures recent != [] && r.Some? ==> |r.value| == Min(|recent|, MenuRecentLimit)
  {
    if recent == [] then Some([NoRecent])
    else
      var r := EntriesAsWritten(recent, 0);
      assert r.Some? ==> r.value[0].RecentEntry?;
      r
  }

  /** A name among the first ten whose shortening panics. */
  ghost predicate PanicsFrom(recent: seq<RecentUpload>, from: nat) {
    exists i :: from <= i < Min(|recent|, MenuRecentLimit) && TruncateNameAsWritten(recent[i].name, MenuNameLen).None?
  }

  lemma {:induction false} EntriesAsWrittenPanics(recent: seq<RecentUpload>, from: nat)
    requires from <= Min(|recent|, MenuRecentLimit)
    ensures EntriesAsWritten(recent, from).None? <==> PanicsFrom(recent, from)
    decreases Min(|recent|, MenuRecentLimit) - from
  {
    if from < Min(|recent|, MenuRecentLimit) {
      EntriesAsWrittenPanics(recent, from + 1);
      if PanicsFrom(recent, from) && TruncateNameAsWritten(recent[from].name, MenuNameLen).Some? {
        var i :| from <= i < Min(|recent|, MenuRecentLimit) && TruncateNameAsWritten(recent[i].name, MenuNameLen).None?;
        assert PanicsFrom(recent, from + 1);
      }
    }
  }

  lemma {:induction false} EntriesAsWrittenValue(recent: seq<RecentUpload>, from: nat)
    requires recent != [] && from <= Min(|recent|, MenuRecentLimit)
    requires EntriesAsWritten(recent, from).Some?
    ensures EntriesAsWritten(recent, from).value == RecentMenu(recent)[from..]
    decreases Min(|recent|, MenuRecentLimit) - from
  {
    if from < Min(|recent|, MenuRecentLimit) {
      var u := recent[from];
      var shown := TruncateNameAsWritten(u.name, MenuNameLen);
      var rest := EntriesAsWritten(recent, from + 1);
      var e := RecentEntry(from, StatusGlyph(u.status), shown.value, u.timestamp);
      assert shown.Some? && rest.Some? && EntriesAsWritten(recent, from).value == [e] + rest.value;
      assert e == Entry(from, u) by {
        TruncateNameAgrees(u.name, MenuNameLen);
      }
      assert rest.value == RecentMenu(recent)[from + 1..] by {
        EntriesAsWrittenValue(recent, from + 1);
      }
      MenuFrom(recent, from);
    }
  }

  /** The menu from position `from` on is that position's entry followed by
      the rest. */
  lemma MenuFrom(recent: seq<RecentUpload>, from: nat)
    requires recent != [] && from < Min(|recent|, MenuRecentLimit)
    ensures RecentMenu(recent)[from..] == [Entry(from, recent[from])] + RecentMenu(recent)[from + 1..]
  {
    var menu := RecentMenu(recent);
    assert menu[from..] == [menu[from]] + menu[from + 1..];
  }

  /** The menu as written panics exactly when one of the first ten names
      cannot be shortened, and otherwise equals the corrected menu. */
  lemma MenuAsWrittenAgrees(recent: seq<RecentUpload>)
    ensures RecentMenuAsWritten(recent).None? <==> PanicsFrom(recent, 0)
    ensures RecentMenuAsWritten(recent).Some? ==> RecentMenuAsWritten(recent).value == RecentMenu(recent)
  {
    if recent != [] {
      EntriesAsWrittenPanics(recent, 0);
      if RecentMenuAsWritten(recent).Some? {
        EntriesAsWrittenValue(recent, 0);
        assert RecentMenu(recent)[0..] == RecentMenu(recent);
      }
    }
  }

  /** Dropping a file named "Escritura_compraventa_ñandú.pdf" into the inbox
      makes the next menu rebuild panic as written, while the corrected menu
      shows it as "Escritura_compraventa_...pdf". */
  lemma AccentedFileBreaksMenu(m: Manager, path: Path, now: Timestamp)
    requires FileName(path) == Some(AccentedName) && !Queued(m.queue, path)
    ensures var recent := Enqueue(m, path, now).recent;
      && recent != []
      && RecentMenuAsWritten(recent).None?
      && RecentMenu(recent)[0].name == AccentedStem + Ellipsis + PdfExtension
  {
    AccentedNamePanics();
    AccentedNameShortened();
    var recent := Enqueue(m, path, now).recent;
    assert recent[0].name == AccentedName;
    MenuAsWrittenAgrees(recent);
    assert PanicsFrom(recent, 0);
  }
}

=== FILE: uploader.dfy ===
/**
 The upload manager's state: a FIFO of files waiting to be uploaded, the
 most-recent-first list of upload records shown to the user, and the
 "uploading" and "online" flags. Records are found by display name (the file
 name), not by path, exactly as the original does.
 */
module Uploader {
  import opened Utf8
  import opened Paths

  /** Maximum number of recent uploads kept (`MAX_RECENT`). */
  const MaxRecent: nat := 15

  /** Base of the exponential retry delay, in seconds (`RETRY_DELAY_BASE_SECS`). */
  const RetryDelayBaseSecs: nat := 5

  /** Failures after which a file is given up on (`MAX_RETRIES`). */
  const MaxRetries: nat := 10

  datatype UploadStatus = Success | Failed | Pending | Uploading

  /** Local wall-clock time formatted "%H:%M:%S", supplied by the caller. */
  type Timestamp = string

  datatype RecentUpload = RecentUpload(name: seq<Byte>, status: UploadStatus, timestamp: Timestamp)

  datatype QueueItem = QueueItem(path: Path, retries: nat)

  datatype Manager = Manager(
    queue: seq<QueueItem>,
    recent: seq<RecentUpload>,
    isUploading: bool,
    isOnline: bool)

  /** `UploadManager::new`: nothing queued, nothing recent, assumed online. */
  const Initial: Manager := Manager([], [], false, true)

  predicate Queued(queue: seq<QueueItem>, path: Path) {
    exists i :: 0 <= i < |queue| && queue[i].path == path
  }

  /** No two queued items share a path. */
  predicate NoDuplicatePaths(queue: seq<QueueItem>) {
    forall i, j :: 0 <= i < j < |queue| ==> queue[i].path != queue[j].path
  }

  /** The `while recent.len() > MAX_RECENT { recent.pop_back() }` loop. */
  function EvictOldest(recent: seq<RecentUpload>): (r: seq<RecentUpload>)
    ensures |r| == if |recent| > MaxRecent then MaxRecent else |recent|
    ensures r == recent[..|r|]
  {
    if |recent| > MaxRecent then EvictOldest(recent[..|recent| - 1]) else recent
  }

  /** `add_recent`: the new record goes in front; only the oldest records at
      the back are dropped, and never more than needed to fit the capacity. */
  function AddRecent(recent: seq<RecentUpload>, entry: RecentUpload): (r: seq<RecentUpload>)
    ensures |r| == if |recent| < MaxRecent then |recent| + 1 else MaxRecent
    ensures r[0] == entry
    ensures forall i :: 0 < i < |r| ==> r[i] == recent[i - 1]
  {
    EvictOldest([entry] + recent)
  }

  /** `i` is the position of the most recent record called `name`. */
  predicate FirstNamed(recent: seq<RecentUpload>, name: seq<Byte>, i: int) {
    && 0 <= i < |recent|
    && recent[i].name == name
    && forall j :: 0 <= j < i ==> recent[j].name != name
  }

  /** `update_recent_status`: the most recent record called `name` takes the
      new status; every other record, and that record's name and time, stay. */
  function UpdateRecentStatus(recent: seq<RecentUpload>, name: seq<Byte>, status: UploadStatus): (r: seq<RecentUpload>)
    ensures |r| == |recent|
    ensures forall i :: 0 <= i < |r| ==> r[i].name == recent[i].name && r[i].timestamp == recent[i].timestamp
    ensures (forall i :: 0 <= i < |recent| ==> recent[i].name != name) ==> r == recent
    ensures forall i :: FirstNamed(recent, name, i) ==> r == recent[i := recent[i].(status := status)]
  {
    if |recent| == 0 then []
    else if recent[0].name == name then [recent[0].(status := status)] + recent[1..]
    else
      var tail := UpdateRecentStatus(recent[1..], name, status);
      FirstNamedInTail(recent, name, status);
      [recent[0]] + tail
  }

  /** When the first record has another name, the most recent record called
      `name` is found in the tail, one position earlier. */
  lemma FirstNamedInTail(recent: seq<RecentUpload>, name: seq<Byte>, status: UploadStatus)
    requires |recent| > 0 && recent[0].name != name
    ensures forall i :: FirstNamed(recent, name, i) ==> i > 0 && FirstNamed(recent[1..], name, i - 1)
    ensures forall i :: 0 < i < |recent| ==>
      [recent[0]] + recent[1..][i - 1 := recent[i].(status := status)] == recent[i := recent[i].(status := status)]
  {
    forall i | 0 < i < |recent|
      ensures [recent[0]] + recent[1..][i - 1 := recent[i].(status := status)] == recent[i := recent[i].(status := status)]
    {
      var x := recent[i].(status := status);
      assert ([recent[0]] + recent[1..][i - 1 := x])[0] == recent[0];
    }
  }

  /** Two status updates of the same name land on the same record, so only
      the second one shows. */
  lemma {:induction false} UpdateTwice(recent: seq<RecentUpload>, name: seq<Byte>, s1: UploadStatus, s2: UploadStatus)
    ensures UpdateRecentStatus(UpdateRecentStatus(recent, name, s1), name, s2) == UpdateRecentStatus(recent, name, s2)
  {
    if |recent| > 0 && recent[0].name != name {
      UpdateTwice(recent[1..], name, s1, s2);
    }
  }

  /** `enqueue`: a path already queued changes nothing; a new one goes to the
      tail with no retries and gets a Pending record, named by its file name,
      at the head of the recent list. */
  function Enqueue(m: Manager, path: Path, now: Timestamp): (r: Manager)
    ensures Queued(m.queue, path) ==> r == m
    ensures !Queued(m.queue, path) ==>
      && r.queue == m.queue + [QueueItem(path, 0)]
      && |r.recent| == (if |m.recent| < MaxRecent then |m.recent| + 1 else MaxRecent)
      && r.recent[0] == RecentUpload(DisplayName(path), Pending, now)
      && (forall i :: 0 < i < |r.recent| ==> r.recent[i] == m.recent[i - 1])
      && r.isUploading == m.isUploading && r.isOnline == m.isOnline
    ensures |r.recent| <= MaxRecent || r.recent == m.recent
    ensures Queued(r.queue, path)
  {
    if Queued(m.queue, path) then m
    else
      var recent := AddRecent(m.recent, RecentUpload(DisplayName(path), Pending, now));
      assert forall i :: 0 <= i < |m.queue| ==> (m.queue + [QueueItem(path, 0)])[i] == m.queue[i];
      assert (m.queue + [QueueItem(path, 0)])[|m.queue|].path == path;
      m.(queue := m.queue + [QueueItem(path, 0)], recent := recent)
  }

  /** Enqueuing never creates a duplicate path in the queue. */
  lemma EnqueueKeepsPathsDistinct(m: Manager, path: Path, now: Timestamp)
    requires NoDuplicatePaths(m.queue)
    ensures NoDuplicatePaths(Enqueue(m, path, now).queue)
  {
  }

  /** Enqueuing paths one after another, as the startup scan's results are. */
  function EnqueueAll(m: Manager, paths: seq<Path>, now: Timestamp): Manager
    decreases |paths|
  {
    if |paths| == 0 then m else EnqueueAll(Enqueue(m, paths[0], now), paths[1..], now)
  }

  /** Enqueuing distinct new paths queues them all, in order, with no retries. */
  lemma {:induction false} EnqueueAllQueue(m: Manager, paths: seq<Path>, now: Timestamp)
    requires forall i, j :: 0 <= i < j < |paths| ==> paths[i] != paths[j]
    requires forall i :: 0 <= i < |paths| ==> !Queued(m.queue, paths[i])
    ensures EnqueueAll(m, paths, now).queue == m.queue + seq(|paths|, i requires 0 <= i < |paths| => QueueItem(paths[i], 0))
    decreases |paths|
  {
    if |paths| > 0 {
      var m' := Enqueue(m, paths[0], now);
      var rest := paths[1..];
      forall i | 0 <= i < |rest|
        ensures !Queued(m'.queue, rest[i])
      {
        assert rest[i] == paths[i + 1];
        assert paths[i + 1] != paths[0];
      }
      EnqueueAllQueue(m', rest, now);
      var items := seq(|paths|, i requires 0 <= i < |paths| => QueueItem(paths[i], 0));
      var restItems := seq(|rest|, i requires 0 <= i < |rest| => QueueItem(rest[i], 0));
      assert items == [QueueItem(paths[0], 0)] + restItems;
    }
  }

  /** After enqueuing distinct new paths the recent list shows the newest of
      them first, then the records that were there before, cut at `MaxRecent`. */
  lemma {:induction false} EnqueueAllRecent(m: Manager, paths: seq<Path>, now: Timestamp)
    requires |m.recent| <= MaxRecent
    requires forall i, j :: 0 <= i < j < |paths| ==> paths[i] != paths[j]
    requires forall i :: 0 <= i < |paths| ==> !Queued(m.queue, paths[i])
    ensures |EnqueueAll(m, paths, now).recent| == Min(|m.recent| + |paths|, MaxRecent)
    ensures forall k :: 0 <= k < Min(|paths|, MaxRecent) ==>
      EnqueueAll(m, paths, now).recent[k] == RecentUpload(DisplayName(paths[|paths| - 1 - k]), Pending, now)
    ensures forall k :: |paths| <= k < |EnqueueAll(m, paths, now).recent| ==>
      EnqueueAll(m, paths, now).recent[k] == m.recent[k - |paths|]
    decreases |paths|
  {
    if |paths| > 0 {
      var m' := Enqueue(m, paths[0], now);
      var rest := paths[1..];
      forall i | 0 <= i < |rest|
        ensures !Queued(m'.queue, rest[i])
      {
        assert rest[i] == paths[i + 1];
        assert paths[i + 1] != paths[0];
      }
      EnqueueAllRecent(m', rest, now);
      var r := EnqueueAll(m', rest, now);
      assert EnqueueAll(m, paths, now) == r;
      assert m'.recent[0] == RecentUpload(DisplayName(paths[0]), Pending, now);
      forall k | 0 <= k < Min(|paths|, MaxRecent)
        ensures r.recent[k] == RecentUpload(DisplayName(paths[|paths| - 1 - k]), Pending, now)
      {
        if k < Min(|rest|, MaxRecent) {
          assert rest[|rest| - 1 - k] == paths[|paths| - 1 - k];
        } else {
          assert r.recent[k] == m'.recent[0];
        }
      }
      forall k | |paths| <= k < |r.recent|
        ensures r.recent[k] == m.recent[k - |paths|]
      {
        var j := k - |rest|;
        assert r.recent[k] == m'.recent[j];
        assert 0 < j < |m'.recent|;
        assert m'.recent[j] == m.recent[j - 1];
      }
    }
  }

  /** The smaller of two counts. Shared by the record list here, the worker
      and the tray menu's ten-entry limit. */
  function Min(a: nat, b: nat): nat {
    if a <= b then a else b
  }
}

=== FILE: utf8.dfy ===
/**
 Byte strings and the UTF-8 rules the original program relies on through Rust's
 `OsStr` and `str`: whether a name is valid UTF-8 (`OsStr::to_str`), where the
 character boundaries of a string are (`str::is_char_boundary`), and the lossy
 decoding used to build display names (`OsStr::to_string_lossy`), which replaces
 every maximal ill-formed subsequence by U+FFFD.
 */
module Utf8 {

  type Byte = b: int | 0 <= b < 256

  /** The bytes of an ASCII literal. */
  function Ascii(s: string): (r: seq<Byte>)
    requires forall i :: 0 <= i < |s| ==> s[i] as int < 128
    ensures |r| == |s| && forall i :: 0 <= i < |s| ==> r[i] == s[i] as int < 0x80
  {
    seq(|s|, i requires 0 <= i < |s| => s[i] as int)
  }

  predicate StartsWith(s: seq<Byte>, prefix: seq<Byte>) {
    |prefix| <= |s| && s[..|prefix|] == prefix
  }

  predicate EndsWith(s: seq<Byte>, suffix: seq<Byte>) {
    |suffix| <= |s| && s[|s| - |suffix|..] == suffix
  }

  predicate IsContinuation(b: Byte) {
    0x80 <= b <= 0xBF
  }

  /** Length of the character a lead byte announces, or 0 for a byte that
      cannot start a character (continuation bytes, 0xC0, 0xC1, 0xF5..0xFF). */
  function Width(lead: Byte): nat {
    if lead < 0x80 then 1
    else if 0xC2 <= lead <= 0xDF then 2
    else if 0xE0 <= lead <= 0xEF then 3
    else if 0xF0 <= lead <= 0xF4 then 4
    else 0
  }

  /** Range allowed for the byte after a lead byte (excludes overlong forms,
      surrogates and code points above U+10FFFF). */
  function SecondLow(lead: Byte): Byte {
    if lead == 0xE0 then 0xA0 else if lead == 0xF0 then 0x90 else 0x80
  }

  function SecondHigh(lead: Byte): Byte {
    if lead == 0xED then 0x9F else if lead == 0xF4 then 0x8F else 0xBF
  }

  /** How many bytes after `s[0]` continue the character it starts, never more
      than the lead byte announces. */
  function ContinuationRun(s: seq<Byte>): (k: nat)
    requires |s| > 0
    ensures k < |s|
    ensures Width(s[0]) <= 1 ==> k == 0
    ensures Width(s[0]) > 1 ==> k < Width(s[0])
    ensures forall j :: 1 <= j <= k ==> IsContinuation(s[j])
  {
    var w := Width(s[0]);
    if w <= 1 || |s| < 2 || !(SecondLow(s[0]) <= s[1] <= SecondHigh(s[0])) then 0
    else if w == 2 || |s| < 3 || !IsContinuation(s[2]) then 1
    else if w == 3 || |s| < 4 || !IsContinuation(s[3]) then 2
    else 3
  }

  /** `s` begins with one complete, well-formed character. */
  predicate StartsWithChar(s: seq<Byte>) {
    |s| > 0 && Width(s[0]) > 0 && ContinuationRun(s) == Width(s[0]) - 1
  }

  /** `s` is well-formed UTF-8. */
  predicate Valid(s: seq<Byte>)
    decreases |s|
  {
    |s| == 0 || (StartsWithChar(s) && Valid(s[Width(s[0])..]))
  }

  /** Rust's `is_char_boundary`: both ends, and every byte that is not a
      continuation byte. */
  predicate IsCharBoundary(s: seq<Byte>, i: nat) {
    i == 0 || i == |s| || (i < |s| && !IsContinuation(s[i]))
  }

  /** The largest character boundary at or below `i`. */
  function FloorCharBoundary(s: seq<Byte>, i: nat): (j: nat)
    requires i <= |s|
    ensures j <= i && IsCharBoundary(s, j)
    ensures forall k :: j < k <= i ==> !IsCharBoundary(s, k)
  {
    if IsCharBoundary(s, i) then i else FloorCharBoundary(s, i - 1)
  }

  const Replacement: seq<Byte> := [0xEF, 0xBF, 0xBD]

  /** `OsStr::to_string_lossy`: well-formed characters are copied, and each
      maximal ill-formed subsequence becomes one U+FFFD. */
  function Lossy(s: seq<Byte>): (r: seq<Byte>)
    ensures r == [] <==> s == []
    ensures |r| <= 3 * |s|
    decreases |s|
  {
    if |s| == 0 then []
    else if StartsWithChar(s) then s[..Width(s[0])] + Lossy(s[Width(s[0])..])
    else Replacement + Lossy(s[1 + ContinuationRun(s)..])
  }

  /** How far the first character of `s` reaches depends only on its first
      `Width(s[0])` bytes. */
  lemma RunDependsOnChar(s: seq<Byte>, t: seq<Byte>)
    requires |s| > 0 && Width(s[0]) > 0
    requires |s| >= Width(s[0]) && |t| >= Width(s[0])
    requires s[..Width(s[0])] == t[..Width(s[0])]
    ensures ContinuationRun(s) == ContinuationRun(t)
  {
    var w := Width(s[0]);
    assert s[0] == t[0] by { assert s[0] == s[..w][0]; }
    if w >= 2 { assert s[1] == s[..w][1] && t[1] == t[..w][1]; }
    if w >= 3 { assert s[2] == s[..w][2] && t[2] == t[..w][2]; }
    if w >= 4 { assert s[3] == s[..w][3] && t[3] == t[..w][3]; }
  }

  /** Putting one complete character in front of a valid string keeps it valid. */
  lemma {:induction false} ValidCons(c: seq<Byte>, t: seq<Byte>)
    requires StartsWithChar(c) && |c| == Width(c[0])
    requires Valid(t)
    ensures Valid(c + t)
  {
    var s := c + t;
    var w := Width(c[0]);
    assert s[..w] == c[..w];
    RunDependsOnChar(c, s);
    assert s[w..] == t;
  }

  /** The first character of a non-empty valid string, on its own. */
  lemma FirstChar(a: seq<Byte>)
    requires Valid(a) && |a| > 0
    ensures Width(a[0]) <= |a|
    ensures StartsWithChar(a[..Width(a[0])]) && |a[..Width(a[0])]| == Width(a[0])
    ensures Valid(a[Width(a[0])..])
  {
    var w := Width(a[0]);
    var c := a[..w];
    assert c[..w] == a[..w];
    RunDependsOnChar(a, c);
  }

  /** A string whose first `Width` bytes form one character and whose rest is
      valid is valid. */
  lemma ValidFold(s: seq<Byte>)
    requires |s| > 0 && 0 < Width(s[0]) <= |s|
    requires StartsWithChar(s[..Width(s[0])])
    requires Valid(s[Width(s[0])..])
    ensures Valid(s)
  {
    var w := Width(s[0]);
    var c := s[..w];
    assert c[0] == s[0];
    assert c[..w] == s[..w];
    RunDependsOnChar(c, s);
  }

  lemma ConcatSlices(a: seq<Byte>, b: seq<Byte>, w: nat)
    requires 0 < w <= |a|
    ensures (a + b)[0] == a[0] && (a + b)[..w] == a[..w] && (a + b)[w..] == a[w..] + b
  {
  }

  /** Well-formed UTF-8 is closed under concatenation. */
  lemma {:induction false} ValidConcat(a: seq<Byte>, b: seq<Byte>)
    requires Valid(a) && Valid(b)
    ensures Valid(a + b)
    decreases |a|
  {
    if |a| == 0 {
      assert a + b == b;
    } else {
      var w := Width(a[0]);
      var s := a + b;
      FirstChar(a);
      ConcatSlices(a, b, w);
      ValidConcat(a[w..], b);
      ValidFold(s);
    }
  }

  /** Inside a well-formed character every byte after the first is a
      continuation byte, so no boundary falls inside it. */
  lemma CharInterior(s: seq<Byte>, j: nat)
    requires StartsWithChar(s) && 0 < j < Width(s[0])
    ensures IsContinuation(s[j])
  {
  }

  /** Text made only of ASCII bytes is valid UTF-8. */
  lemma {:induction false} AsciiIsValid(b: seq<Byte>)
    requires forall i :: 0 <= i < |b| ==> b[i] < 0x80
    ensures Valid(b)
    decreases |b|
  {
    if |b| > 0 {
      AsciiIsValid(b[1..]);
    }
  }

  /** Cutting valid UTF-8 at a character boundary leaves two valid halves. */
  lemma {:induction false} ValidSplit(s: seq<Byte>, i: nat)
    requires Valid(s) && i <= |s| && IsCharBoundary(s, i)
    ensures Valid(s[..i]) && Valid(s[i..])
    decreases |s|
  {
    if i == 0 {
      assert s[..0] == [] && s[0..] == s;
    } else if i == |s| {
      assert s[..i] == s && s[i..] == [];
    } else {
      var w := Width(s[0]);
      if i < w {
        CharInterior(s, i);
        assert false;
      }
      var rest := s[w..];
      assert IsCharBoundary(rest, i - w) by {
        if i - w != 0 && i - w != |rest| { assert rest[i - w] == s[i]; }
      }
      FirstChar(s);
      ValidSplit(rest, i - w);
      SplitSlices(s, w, i);
      ValidCons(s[..w], s[w..i]);
    }
  }

  lemma SplitSlices(s: seq<Byte>, w: nat, i: nat)
    requires w <= i <= |s|
    ensures s[w..][i - w..] == s[i..] && s[w..][..i - w] == s[w..i] && s[..w] + s[w..i] == s[..i]
  {
  }

  /** A non-empty valid string starts at a character boundary, so its first
      byte is not a continuation byte. */
  lemma ValidLeadNotContinuation(s: seq<Byte>)
    requires Valid(s) && |s| > 0
    ensures !IsContinuation(s[0])
  {
  }

  /** In valid UTF-8 some character boundary lies at most three bytes
      below any position. */
  lemma {:induction false} BoundaryNear(s: seq<Byte>, i: nat) returns (k: nat)
    requires Valid(s) && i <= |s|
    ensures k <= i <= k + 3 && IsCharBoundary(s, k)
    decreases |s|
  {
    if i == |s| {
      k := i;
    } else {
      var w := Width(s[0]);
      if i < w {
        k := 0;
      } else {
        var rest := s[w..];
        var k' := BoundaryNear(rest, i - w);
        k := k' + w;
        if k' == 0 && w < |s| {
          ValidLeadNotContinuation(rest);
          assert rest[0] == s[w];
        } else if k' != 0 && k' != |rest| {
          assert rest[k'] == s[k];
        }
      }
    }
  }

  /** So the floor boundary of a position in valid UTF-8 is at most three
      bytes below it. */
  lemma FloorNear(s: seq<Byte>, i: nat)
    requires Valid(s) && i <= |s|
    ensures i <= FloorCharBoundary(s, i) + 3
  {
    var k := BoundaryNear(s, i);
  }

  /** In valid UTF-8 the position after an ASCII byte is a character
      boundary. */
  lemma {:induction false} AfterAsciiIsBoundary(s: seq<Byte>, d: nat)
    requires Valid(s) && d < |s| && s[d] < 0x80
    ensures IsCharBoundary(s, d + 1)
    decreases |s|
  {
    var w := Width(s[0]);
    var rest := s[w..];
    if d == 0 {
      assert w == 1;
      if 1 < |s| {
        ValidLeadNotContinuation(rest);
        assert rest[0] == s[1];
      }
    } else if d < w {
      CharInterior(s, d);
      assert false;
    } else {
      assert rest[d - w] == s[d];
      AfterAsciiIsBoundary(rest, d - w);
      if d - w + 1 < |rest| {
        assert rest[d - w + 1] == s[d + 1];
      }
    }
  }

  /** The lossy decoding always yields well-formed UTF-8. */
  lemma {:induction false} LossyIsValid(s: seq<Byte>)
    ensures Valid(Lossy(s))
    decreases |s|
  {
    if |s| == 0 {
    } else if StartsWithChar(s) {
      var w := Width(s[0]);
      var c := s[..w];
      assert c[..w] == s[..w];
      RunDependsOnChar(s, c);
      LossyIsValid(s[w..]);
      ValidCons(c, Lossy(s[w..]));
    } else {
      var r := Replacement;
      assert StartsWithChar(r) && |r| == Width(r[0]);
      LossyIsValid(s[1 + ContinuationRun(s)..]);
      ValidCons(r, Lossy(s[1 + ContinuationRun(s)..]));
    }
  }

  /** On a string that is already valid the lossy decoding changes nothing, so
      applying it twice is the same as applying it once. */
  lemma {:induction false} LossyKeepsValid(s: seq<Byte>)
    requires Valid(s)
    ensures Lossy(s) == s
    decreases |s|
  {
    if |s| > 0 {
      var w := Width(s[0]);
      LossyKeepsValid(s[w..]);
      assert s[..w] + s[w..] == s;
    }
  }

  lemma LossyIdempotent(s: seq<Byte>)
    ensures Lossy(Lossy(s)) == Lossy(s)
  {
    LossyIsValid(s);
    LossyKeepsValid(Lossy(s));
  }
}

=== FILE: watcher.dfy ===
/**
 The candidate filter of the inbox watcher: which paths may be queued for
 upload, the two-sample readiness check, the startup scan of the inbox and the
 filter applied to each batch of debounced filesystem events. Every answer the
 filesystem gives (is it a directory, a regular file, what size does its
 metadata report, can the directory be listed) is an input here.
 */
module Watcher {
  import opened Options
  import opened Utf8
  import opened Paths

  /** System artefacts ignored by exact name. */
  const IgnoredExact: seq<seq<Byte>> :=
    [Ascii(".DS_Store"), Ascii("Thumbs.db"), Ascii("desktop.ini"), Ascii(".localized"), Ascii("Icon\r")]

  /** Office lock files and AppleDouble companions. */
  const IgnoredPrefixes: seq<seq<Byte>> := [Ascii("~$"), Ascii("._")]

  /** Partial downloads and editor swap files (compared byte for byte, so the
      match is case-sensitive). */
  const IgnoredSuffixes: seq<seq<Byte>> :=
    [Ascii(".tmp"), Ascii(".swp"), Ascii(".crdownload"), Ascii(".part"), Ascii(".partial")]

  /** The file name of `path` as text, when it has one and it is UTF-8. */
  function NameText(path: Path): (r: Option<seq<Byte>>)
    ensures r.Some? <==> FileName(path).Some? && Valid(FileName(path).value)
    ensures r.Some? ==> r == FileName(path)
  {
    match FileName(path)
    case None => None
    case Some(n) => if Valid(n) then Some(n) else None
  }

  /** The rule `should_ignore` decides, stated declaratively; `isDir` is the
      filesystem's answer to `path.is_dir()`. */
  predicate Ignored(path: Path, isDir: bool) {
    match NameText(path)
    case None => true
    case Some(name) =>
      || StartsWith(name, [Dot])
      || name in IgnoredExact
      || (exists p :: p in IgnoredPrefixes && StartsWith(name, p))
      || (exists s :: s in IgnoredSuffixes && EndsWith(name, s))
      || Normal(Subidos) in path
      || isDir
  }

  /** `should_ignore`, rule by rule with its early returns. */
  method ShouldIgnore(path: Path, isDir: bool) returns (ignore: bool)
    ensures ignore <==> Ignored(path, isDir)
  {
    var name: seq<Byte>;
    match NameText(path) {
      case None => return true;
      case Some(n) => name := n;
    }
    if |name| > 0 && name[0] == Dot {
      return true;
    }
    if name in IgnoredExact {
      return true;
    }
    var i := 0;
    while i < |IgnoredPrefixes|
      invariant 0 <= i <= |IgnoredPrefixes|
      invariant forall k :: 0 <= k < i ==> !StartsWith(name, IgnoredPrefixes[k])
    {
      if StartsWith(name, IgnoredPrefixes[i]) {
        return true;
      }
      i := i + 1;
    }
    i := 0;
    while i < |IgnoredSuffixes|
      invariant 0 <= i <= |IgnoredSuffixes|
      invariant forall k :: 0 <= k < i ==> !EndsWith(name, IgnoredSuffixes[k])
    {
      if EndsWith(name, IgnoredSuffixes[i]) {
        return true;
      }
      i := i + 1;
    }
    i := 0;
    while i < |path|
      invariant 0 <= i <= |path|
      invariant forall k :: 0 <= k < i ==> path[k] != Normal(Subidos)
    {
      if path[i] == Normal(Subidos) {
        return true;
      }
      i := i + 1;
    }
    return isDir;
  }

  /** A file named like one of the system artefacts is never a candidate,
      wherever it lies. */
  lemma DenyListIgnored(path: Path, isDir: bool)
    requires FileName(path).Some? && FileName(path).value in IgnoredExact
    ensures Ignored(path, isDir)
  {
    AsciiIsValid(FileName(path).value);
  }

  /** Whatever lies in the archive folder of an inbox is never a candidate, so
      a file the worker has moved there is never queued again. */
  lemma ArchiveNeverCandidate(inbox: Path, name: seq<Byte>, isDir: bool)
    ensures Ignored(Join(UploadedSubfolder(inbox), name), isDir)
  {
    var p := Join(UploadedSubfolder(inbox), name);
    assert p[|inbox|] == Normal(Subidos);
  }

  /** The archive rule looks at every component of the full path, not only
      below the inbox: an inbox that itself lies under a folder named
      "Subidos" has no candidates at all. */
  lemma InboxUnderArchiveHasNoCandidates(inbox: Path, name: seq<Byte>, isDir: bool)
    requires Normal(Subidos) in inbox
    ensures Ignored(Join(inbox, name), isDir)
  {
  }

  /** The suffix rule compares bytes: a partial download named "scan.TMP"
      in an ordinary folder is a candidate. */
  lemma SuffixMatchIsCaseSensitive(inbox: Path)
    requires Normal(Subidos) !in inbox
    ensures !Ignored(Join(inbox, UpperTmpName), false)
  {
    AsciiIsValid(UpperTmpName);
    UpperTmpNameNotListed();
    UpperTmpNameNoSuffix();
    assert UpperTmpName != Subidos by { assert UpperTmpName[0] != Subidos[0]; }
  }

  const UpperTmpName: seq<Byte> := Ascii("scan.TMP")

  lemma UpperTmpNameNotListed()
    ensures !StartsWith(UpperTmpName, [Dot]) && UpperTmpName !in IgnoredExact
    ensures forall p :: p in IgnoredPrefixes ==> !StartsWith(UpperTmpName, p)
  {
    var name := UpperTmpName;
    assert name[0] != Dot;
    assert name != IgnoredExact[0] && name != IgnoredExact[1] && name != IgnoredExact[2];
    assert name != IgnoredExact[3] && name != IgnoredExact[4];
    assert !StartsWith(name, IgnoredPrefixes[0]) && !StartsWith(name, IgnoredPrefixes[1]);
  }

  lemma UpperTmpNameNoSuffix()
    ensures forall s :: s in IgnoredSuffixes ==> !EndsWith(UpperTmpName, s)
  {
    var name := UpperTmpName;
    assert !EndsWith(name, IgnoredSuffixes[0]) by { assert name[5] != IgnoredSuffixes[0][1]; }
    assert !EndsWith(name, IgnoredSuffixes[1]) by { assert name[5] != IgnoredSuffixes[1][1]; }
    assert !EndsWith(name, IgnoredSuffixes[2]);
    assert !EndsWith(name, IgnoredSuffixes[3]) by { assert name[3] != IgnoredSuffixes[3][0]; }
    assert !EndsWith(name, IgnoredSuffixes[4]);
  }

  /** What a path that passes the filter looks like. */
  lemma CandidateShape(path: Path, isDir: bool)
    requires !Ignored(path, isDir)
    ensures FileName(path).Some? && Valid(FileName(path).value)
    ensures !StartsWith(FileName(path).value, [Dot])
    ensures FileName(path).value !in IgnoredExact
    ensures forall p :: p in IgnoredPrefixes ==> !StartsWith(FileName(path).value, p)
    ensures forall s :: s in IgnoredSuffixes ==> !EndsWith(FileName(path).value, s)
    ensures Normal(Subidos) !in path && !isDir
  {
  }

  /** `is_file_ready`: two metadata samples taken half a second apart. */
  function IsFileReady(first: Option<nat>, second: Option<nat>): (ready: bool)
    ensures first.None? || second.None? ==> !ready
    ensures first.Some? && second.Some? && first.value != second.value ==> !ready
    ensures second == Some(0) ==> !ready
    ensures first.Some? && first == second && first.value > 0 ==> ready
  {
    match first
    case None => false
    case Some(a) =>
      match second
      case None => false
      case Some(b) => a == b && a > 0
  }

  /** One entry of `read_dir`, with the filesystem's answers about it. */
  datatype DirEntry = DirEntry(path: Path, isDir: bool, isFile: bool)

  /** An entry the startup scan keeps: it was read, passes the filter and is
      a regular file. */
  predicate Scanned(e: Option<DirEntry>) {
    e.Some? && !Ignored(e.value.path, e.value.isDir) && e.value.isFile
  }

  /** The paths the startup scan keeps, in directory order. */
  function ScanCandidates(entries: seq<Option<DirEntry>>): (r: seq<Path>)
    ensures |r| <= |entries|
    ensures forall p :: p in r <==>
      exists i :: 0 <= i < |entries| && Scanned(entries[i]) && entries[i].value.path == p
  {
    if |entries| == 0 then []
    else
      var init, last := entries[..|entries| - 1], entries[|entries| - 1];
      var r := ScanCandidates(init) + (if Scanned(last) then [last.value.path] else []);
      assert forall i :: 0 <= i < |init| ==> init[i] == entries[i];
      r
  }

  /** The scan keeps directory order: scanning a listing in two parts gives
      the two results one after the other. */
  lemma {:induction false} ScanCandidatesAppend(a: seq<Option<DirEntry>>, b: seq<Option<DirEntry>>)
    ensures ScanCandidates(a + b) == ScanCandidates(a) + ScanCandidates(b)
    decreases |b|
  {
    if |b| == 0 {
      assert a + b == a;
    } else {
      var b' := b[..|b| - 1];
      assert (a + b)[..|a + b| - 1] == a + b';
      ScanCandidatesAppend(a, b');
    }
  }

  /** `scan_existing_files`: `listing` is `read_dir`'s result, `None` when the
      directory cannot be read; an entry that fails to read is `None` and is
      skipped (`flatten`). */
  method ScanExistingFiles(listing: Option<seq<Option<DirEntry>>>) returns (files: seq<Path>)
    ensures listing.None? ==> files == []
    ensures listing.Some? ==> files == ScanCandidates(listing.value)
  {
    files := [];
    if listing.Some? {
      var entries := listing.value;
      var i := 0;
      while i < |entries|
        invariant 0 <= i <= |entries|
        invariant files == ScanCandidates(entries[..i])
      {
        assert entries[..i + 1][..i] == entries[..i];
        match entries[i] {
          case None =>
          case Some(e) =>
            var ignore := ShouldIgnore(e.path, e.isDir);
            if !ignore && e.isFile {
              files := files + [e.path];
            }
        }
        i := i + 1;
      }
      assert entries[..|entries|] == entries;
    }
  }

  datatype EventKind = Any | AnyContinuous

  /** One debounced event, with the filesystem's answers about its path at
      the moments the callback asks them. */
  datatype Event = Event(
    kind: EventKind,
    path: Path,
    isDir: bool,
    isFile: bool,
    firstSize: Option<nat>,
    secondSize: Option<nat>)

  /** The callback hands an event's path to the queue. */
  predicate Emitted(e: Event, inbox: Path) {
    && e.kind == Any
    && !Ignored(e.path, e.isDir)
    && e.isFile
    && Parent(e.path) == Some(inbox)
    && IsFileReady(e.firstSize, e.secondSize)
  }

  /** The paths a batch of debounced events sends, in event order. */
  function ReadyPaths(events: seq<Event>, inbox: Path): (r: seq<Path>)
    ensures |r| <= |events|
    ensures forall p :: p in r <==>
      exists i :: 0 <= i < |events| && Emitted(events[i], inbox) && events[i].path == p
  {
    if |events| == 0 then []
    else
      var init, last := events[..|events| - 1], events[|events| - 1];
      var r := ReadyPaths(init, inbox) + (if Emitted(last, inbox) then [last.path] else []);
      assert forall i :: 0 <= i < |init| ==> init[i] == events[i];
      r
  }

  /** Sending follows the batch: the paths of two consecutive runs of events
      are those of the first run followed by those of the second, so the order
      and the repetitions of the events are kept. */
  lemma {:induction false} ReadyPathsAppend(a: seq<Event>, b: seq<Event>, inbox: Path)
    ensures ReadyPaths(a + b, inbox) == ReadyPaths(a, inbox) + ReadyPaths(b, inbox)
    decreases |b|
  {
    if |b| == 0 {
      assert a + b == a;
    } else {
      var b' := b[..|b| - 1];
      assert (a + b)[..|a + b| - 1] == a + b';
      ReadyPathsAppend(a, b', inbox);
    }
  }

  /** The debouncer callback of `start_watching`: `batch` is `None` when the
      debouncer reports an error, which is only logged. */
  method HandleDebounced(batch: Option<seq<Event>>, inbox: Path) returns (sent: seq<Path>)
    ensures batch.None? ==> sent == []
    ensures batch.Some? ==> sent == ReadyPaths(batch.value, inbox)
  {
    sent := [];
    if batch.Some? {
      var events := batch.value;
      var i := 0;
      while i < |events|
        invariant 0 <= i <= |events|
        invariant sent == ReadyPaths(events[..i], inbox)
      {
        assert events[..i + 1][..i] == events[..i];
        var e := events[i];
        if e.kind == Any {
          var ignore := ShouldIgnore(e.path, e.isDir);
          if !ignore && e.isFile {
            match Parent(e.path) {
              case None =>
              case Some(parent) =>
                if parent == inbox && IsFileReady(e.firstSize, e.secondSize) {
                  sent := sent + [e.path];
                }
            }
          }
        }
        i := i + 1;
      }
      assert events[..|events|] == events;
    }
  }

  /** Everything the callback sends is a ready, non-empty regular file directly
      inside the inbox, and nothing from the archive folder. */
  lemma ReadyPathsAreInboxFiles(events: seq<Event>, inbox: Path, p: Path)
    requires p in ReadyPaths(events, inbox)
    ensures Parent(p) == Some(inbox)
    ensures Normal(Subidos) !in p
    ensures exists i :: (0 <= i < |events| && events[i].path == p && events[i].kind == Any
                         && events[i].isFile && events[i].secondSize.Some? && events[i].secondSize.value > 0
                         && events[i].firstSize == events[i].secondSize)
  {
  }
}

=== FILE: worker.dfy ===
/**
 One iteration of the upload worker loop (`start_worker`) as a step function.
 The outcome of the health probe and of the upload are inputs; the result is
 the new manager state, the file operation requested after a successful
 upload, and how many seconds the loop then sleeps.

 An iteration that uploads is split into `BeginUpload` (take the queue head,
 raise the in-flight flag, mark the record Uploading) and `FinishUpload`
 (record the outcome), because in the original other threads may enqueue
 between the two while the upload is in progress.
 */
module Worker {
  import opened Options
  import opened Utf8
  import opened Paths
  import opened Uploader
  import Watcher

  /** Sleep after a failed health probe. */
  const OfflineWaitSecs: nat := 15

  /** Sleep when the queue is empty. */
  const IdleWaitSecs: nat := 2

  /** The retry count stops doubling the delay from this exponent on. */
  const BackoffCapExponent: nat := 6

  function Pow2(n: nat): nat {
    if n == 0 then 1 else 2 * Pow2(n - 1)
  }

  lemma {:induction false} Pow2Monotone(a: nat, b: nat)
    requires a <= b
    ensures 1 <= Pow2(a) <= Pow2(b)
    decreases b
  {
    if b > 0 {
      if a == b {
        Pow2Monotone(a - 1, b - 1);
      } else {
        Pow2Monotone(a, b - 1);
      }
    }
  }

  /** `RETRY_DELAY_BASE_SECS * 2^min(retries, 6)`: between 5 and 320 seconds,
      and at least 10 once a failure has been counted. */
  function Backoff(retries: nat): (secs: nat)
    ensures RetryDelayBaseSecs <= secs <= 320
    ensures retries >= 1 ==> 2 * RetryDelayBaseSecs <= secs
    ensures retries >= BackoffCapExponent ==> secs == 320
  {
    var e := Min(retries, BackoffCapExponent);
    Pow2Monotone(e, BackoffCapExponent);
    assert retries >= 1 ==> 2 <= Pow2(e) by {
      if retries >= 1 { Pow2Monotone(1, e); }
    }
    RetryDelayBaseSecs * Pow2(e)
  }

  /** The delay never shrinks as the retry count grows. */
  lemma BackoffMonotone(a: nat, b: nat)
    requires a <= b
    ensures Backoff(a) <= Backoff(b)
  {
    Pow2Monotone(Min(a, BackoffCapExponent), Min(b, BackoffCapExponent));
  }

  /** The delay doubles with each further failure until the cap. */
  lemma BackoffDoubles(k: nat)
    requires k < BackoffCapExponent
    ensures Backoff(k + 1) == 2 * Backoff(k)
  {
  }

  /** Where the worker is configured to put uploaded files. */
  datatype Settings = Settings(deleteAfterUpload: bool, inbox: Path)

  /** The filesystem operation the worker asks for after an iteration. Its
      own success or failure is only logged and changes no state. */
  datatype FileAction = NoAction | RemoveFile(path: Path) | MoveFile(from: Path, to: Path)

  datatype Iteration = Iteration(next: Manager, action: FileAction, waitSecs: nat)

  /** What happens to a file once uploaded: it is deleted, or moved into the
      archive folder under its display name. */
  function Disposal(settings: Settings, path: Path): (a: FileAction)
    ensures settings.deleteAfterUpload <==> a == RemoveFile(path)
    ensures !settings.deleteAfterUpload ==> a.MoveFile? && a.from == path && Normal(Subidos) in a.to
    ensures !settings.deleteAfterUpload && DisplayName(path) != [] ==>
      Parent(a.to) == Some(UploadedSubfolder(settings.inbox)) && FileName(a.to) == Some(DisplayName(path))
  {
    if settings.deleteAfterUpload then RemoveFile(path)
    else
      var to := Join(UploadedSubfolder(settings.inbox), DisplayName(path));
      assert to[|settings.inbox|] == Normal(Subidos);
      MoveFile(path, to)
  }

  /** `after` is `before` with the status of the most recent record called
      `name` replaced, and nothing else changed. */
  ghost predicate StatusSet(before: seq<RecentUpload>, after: seq<RecentUpload>, name: seq<Byte>, status: UploadStatus) {
    && |after| == |before|
    && (forall i :: FirstNamed(before, name, i) ==> after == before[i := before[i].(status := status)])
    && ((forall i :: 0 <= i < |before| ==> before[i].name != name) ==> after == before)
  }

  /** Take the queue head, raise the in-flight flag and mark its record
      Uploading. */
  function BeginUpload(m: Manager): (r: (Manager, QueueItem))
    requires m.queue != []
    ensures r.1 == m.queue[0] && r.0.queue == m.queue[1..]
    ensures r.0.isUploading && r.0.isOnline == m.isOnline
    ensures StatusSet(m.recent, r.0.recent, DisplayName(r.1.path), Uploading)
  {
    var item := m.queue[0];
    (m.(queue := m.queue[1..], isUploading := true,
        recent := UpdateRecentStatus(m.recent, DisplayName(item.path), Uploading)), item)
  }

  /** Record the outcome of uploading `item`. On success the record becomes
      Success and the file is disposed of; on failure the retry count grows
      and the item is re-queued at the tail with a Pending record and a
      backoff delay, unless this was its tenth failure, in which case the
      record becomes Failed and the item is dropped. */
  function FinishUpload(m: Manager, item: QueueItem, settings: Settings, uploaded: bool): (r: Iteration)
    ensures !r.next.isUploading && r.next.isOnline == m.isOnline
    ensures |r.next.recent| == |m.recent|
    ensures uploaded ==> r.next.queue == m.queue && r.action == Disposal(settings, item.path) && r.waitSecs == 0
    ensures !uploaded ==> r.action == NoAction
    ensures !uploaded && item.retries + 1 < MaxRetries ==>
      r.next.queue == m.queue + [QueueItem(item.path, item.retries + 1)]
      && 2 * RetryDelayBaseSecs <= r.waitSecs == Backoff(item.retries + 1) <= 320
    ensures !uploaded && item.retries + 1 >= MaxRetries ==> r.next.queue == m.queue && r.waitSecs == 0
  {
    var name := DisplayName(item.path);
    if uploaded then
      Iteration(m.(recent := UpdateRecentStatus(m.recent, name, Success), isUploading := false),
                Disposal(settings, item.path), 0)
    else
      var failed := item.(retries := item.retries + 1);
      if failed.retries < MaxRetries then
        Iteration(m.(recent := UpdateRecentStatus(m.recent, name, Pending), isUploading := false,
                     queue := m.queue + [failed]),
                  NoAction, Backoff(failed.retries))
      else
        Iteration(m.(recent := UpdateRecentStatus(m.recent, name, Failed), isUploading := false),
                  NoAction, 0)
  }

  /** The status an outcome leaves on the item's record. */
  function Outcome(item: QueueItem, uploaded: bool): UploadStatus {
    if uploaded then Success else if item.retries + 1 < MaxRetries then Pending else Failed
  }

  /** The Uploading mark is overwritten by the outcome on the same record. */
  lemma BeginThenFinish(m: Manager, settings: Settings, uploaded: bool)
    requires m.queue != []
    ensures var begun := BeginUpload(m);
      StatusSet(m.recent, FinishUpload(begun.0, begun.1, settings, uploaded).next.recent,
                DisplayName(m.queue[0].path), Outcome(m.queue[0], uploaded))
  {
    UpdateTwice(m.recent, DisplayName(m.queue[0].path), Uploading, Outcome(m.queue[0], uploaded));
  }

  /** One pass of the worker loop. The health probe's answer is stored; when
      offline the loop sleeps 15 s and when the queue is empty 2 s, both
      without touching the queue or the records; otherwise it uploads the
      queue head (see `StepSucceeds`, `StepRequeues`, `StepGivesUp` and
      `StepRecordsOutcome`). */
  function WorkerStep(m: Manager, settings: Settings, online: bool, uploaded: bool): (r: Iteration)
    ensures r.next.isOnline == online
    ensures |r.next.recent| == |m.recent|
    ensures !online ==> r == Iteration(m.(isOnline := false), NoAction, OfflineWaitSecs)
    ensures online && m.queue == [] ==> r == Iteration(m.(isOnline := true), NoAction, IdleWaitSecs)
    ensures online && m.queue != [] ==> !r.next.isUploading
  {
    var probed := m.(isOnline := online);
    if !online then Iteration(probed, NoAction, OfflineWaitSecs)
    else if probed.queue == [] then Iteration(probed, NoAction, IdleWaitSecs)
    else
      var begun := BeginUpload(probed);
      FinishUpload(begun.0, begun.1, settings, uploaded)
  }

  /** A successful upload takes the head off the queue for good (FIFO) and
      asks for the file's disposal, with no wait. */
  lemma StepSucceeds(m: Manager, settings: Settings)
    requires m.queue != []
    ensures var r := WorkerStep(m, settings, true, true);
      && r.next.queue == m.queue[1..]
      && r.action == Disposal(settings, m.queue[0].path)
      && r.waitSecs == 0
  {
    var begun := BeginUpload(m.(isOnline := true));
    assert begun.0.queue == m.queue[1..] && begun.1 == m.queue[0];
    assert WorkerStep(m, settings, true, true) == FinishUpload(begun.0, begun.1, settings, true);
  }

  /** A failed upload below the retry budget puts the head back at the tail
      with one more retry and waits `Backoff(retries)`, between 10 and 320
      seconds. */
  lemma StepRequeues(m: Manager, settings: Settings)
    requires m.queue != [] && m.queue[0].retries + 1 < MaxRetries
    ensures var r := WorkerStep(m, settings, true, false);
      && r.next.queue == m.queue[1..] + [QueueItem(m.queue[0].path, m.queue[0].retries + 1)]
      && r.action == NoAction
      && 2 * RetryDelayBaseSecs <= r.waitSecs == Backoff(m.queue[0].retries + 1) <= 320
  {
    var begun := BeginUpload(m.(isOnline := true));
    var item := QueueItem(m.queue[0].path, m.queue[0].retries + 1);
    assert begun.0.queue == m.queue[1..] && begun.1 == m.queue[0];
    var r := FinishUpload(begun.0, begun.1, settings, false);
    assert r.next.queue == begun.0.queue + [item];
    assert WorkerStep(m, settings, true, false) == r;
  }

  /** The failure that exhausts the retry budget drops the head, with no
      wait. */
  lemma StepGivesUp(m: Manager, settings: Settings)
    requires m.queue != [] && m.queue[0].retries + 1 >= MaxRetries
    ensures var r := WorkerStep(m, settings, true, false);
      && r.next.queue == m.queue[1..]
      && r.action == NoAction
      && r.waitSecs == 0
  {
    var begun := BeginUpload(m.(isOnline := true));
    assert begun.0.queue == m.queue[1..] && begun.1 == m.queue[0];
    assert WorkerStep(m, settings, true, false) == FinishUpload(begun.0, begun.1, settings, false);
  }

  /** After an upload the record of the file, the most recent one with its
      name, shows the outcome (Success; Pending when re-queued; Failed when
      given up) and no other record changes. */
  lemma StepRecordsOutcome(m: Manager, settings: Settings, uploaded: bool)
    requires m.queue != []
    ensures StatusSet(m.recent, WorkerStep(m, settings, true, uploaded).next.recent,
                      DisplayName(m.queue[0].path), Outcome(m.queue[0], uploaded))
  {
    var probed := m.(isOnline := true);
    var begun := BeginUpload(probed);
    assert WorkerStep(m, settings, true, uploaded) == FinishUpload(begun.0, begun.1, settings, uploaded);
    BeginThenFinish(probed, settings, uploaded);
  }

  /** Every queued item still has retries left. */
  ghost predicate WithinBudget(queue: seq<QueueItem>) {
    forall i :: 0 <= i < |queue| ==> queue[i].retries < MaxRetries
  }

  /** What the manager keeps true as long as enqueues and worker iterations do
      not overlap: distinct queued paths, every item within its retry budget,
      a recent list within capacity, and no upload in flight between
      iterations. */
  ghost predicate Consistent(m: Manager) {
    && NoDuplicatePaths(m.queue)
    && WithinBudget(m.queue)
    && |m.recent| <= MaxRecent
    && !m.isUploading
  }

  lemma InitialIsConsistent()
    ensures Consistent(Initial)
  {
  }

  lemma EnqueueKeepsConsistent(m: Manager, path: Path, now: Timestamp)
    requires Consistent(m)
    ensures Consistent(Enqueue(m, path, now))
  {
    EnqueueKeepsPathsDistinct(m, path, now);
  }

  /** A worker iteration only ever removes paths from the queue or puts the
      head back at the tail; it never brings in a path that was not queued,
      and a re-queued item has one more retry than before. */
  lemma StepAddsNoPath(m: Manager, settings: Settings, online: bool, uploaded: bool)
    ensures var q := WorkerStep(m, settings, online, uploaded).next.queue;
      forall i :: 0 <= i < |q| ==> Queued(m.queue, q[i].path)
  {
    var q := WorkerStep(m, settings, online, uploaded).next.queue;
    forall i | 0 <= i < |q|
      ensures Queued(m.queue, q[i].path)
    {
      if online && m.queue != [] {
        if i < |m.queue| - 1 {
          assert q[i] == m.queue[i + 1];
        } else {
          assert q[i].path == m.queue[0].path;
        }
      }
    }
  }

  /** Putting the head back at the tail, with any retry count, keeps the
      queued paths distinct. */
  lemma RequeueHeadKeepsDistinct(q: seq<QueueItem>, retries: nat)
    requires NoDuplicatePaths(q) && q != []
    ensures NoDuplicatePaths(q[1..] + [QueueItem(q[0].path, retries)])
  {
    var q' := q[1..] + [QueueItem(q[0].path, retries)];
    forall i, j | 0 <= i < j < |q'|
      ensures q'[i].path != q'[j].path
    {
      assert q'[i] == q[i + 1];
      if j < |q'| - 1 {
        assert q'[j] == q[j + 1];
      }
    }
  }

  /** Taking the head off a queue keeps its paths distinct and within
      budget. */
  lemma TailKeepsInvariant(q: seq<QueueItem>)
    requires NoDuplicatePaths(q) && WithinBudget(q) && q != []
    ensures NoDuplicatePaths(q[1..]) && WithinBudget(q[1..])
  {
    forall i | 0 <= i < |q[1..]|
      ensures q[1..][i] == q[i + 1]
    {
    }
  }

  /** An iteration that uploads keeps the manager consistent; in particular
      the retry `push_back` cannot duplicate a path, because the item it puts
      back was taken off the queue in the same iteration. */
  lemma UploadKeepsConsistent(m: Manager, settings: Settings, uploaded: bool)
    requires Consistent(m) && m.queue != []
    ensures Consistent(WorkerStep(m, settings, true, uploaded).next)
  {
    TailKeepsInvariant(m.queue);
    if uploaded {
      StepSucceeds(m, settings);
    } else if m.queue[0].retries + 1 < MaxRetries {
      RequeueKeepsConsistent(m, settings);
    } else {
      StepGivesUp(m, settings);
    }
  }

  lemma RequeueKeepsConsistent(m: Manager, settings: Settings)
    requires Consistent(m) && m.queue != [] && m.queue[0].retries + 1 < MaxRetries
    ensures var q := WorkerStep(m, settings, true, false).next.queue;
      NoDuplicatePaths(q) && WithinBudget(q)
  {
    TailKeepsInvariant(m.queue);
    StepRequeues(m, settings);
    RequeueHeadKeepsDistinct(m.queue, m.queue[0].retries + 1);
  }

  /** Run without interference, the worker keeps the manager consistent. */
  lemma StepKeepsConsistent(m: Manager, settings: Settings, online: bool, uploaded: bool)
    requires Consistent(m)
    ensures Consistent(WorkerStep(m, settings, online, uploaded).next)
  {
    if online && m.queue != [] {
      UploadKeepsConsistent(m, settings, uploaded);
    }
  }

  /** The interleaving the original allows: while an upload is in flight its
      path is no longer queued, so the watcher may enqueue it again; if the
      upload then fails, the retry `push_back` (which skips the duplicate
      check) leaves the same path queued twice. */
  lemma RetryAfterRaceDuplicatesPath(m: Manager, settings: Settings, now: Timestamp)
    requires Consistent(m) && m.queue != [] && m.queue[0].retries + 1 < MaxRetries
    ensures var begun := BeginUpload(m);
      var raced := Enqueue(begun.0, begun.1.path, now);
      var done := FinishUpload(raced, begun.1, settings, false).next;
      && raced.queue == m.queue[1..] + [QueueItem(m.queue[0].path, 0)]
      && done.queue == raced.queue + [QueueItem(m.queue[0].path, m.queue[0].retries + 1)]
      && !NoDuplicatePaths(done.queue)
  {
    var begun := BeginUpload(m);
    var head := m.queue[0];
    assert !Queued(begun.0.queue, head.path) by {
      forall i | 0 <= i < |begun.0.queue|
        ensures begun.0.queue[i].path != head.path
      {
        assert begun.0.queue[i] == m.queue[i + 1];
      }
    }
    var raced := Enqueue(begun.0, begun.1.path, now);
    var done := FinishUpload(raced, begun.1, settings, false).next;
    assert done.queue[|done.queue| - 2].path == done.queue[|done.queue| - 1].path;
  }

  /** The same interleaving seen from the records, for an enqueue made after
      the Uploading mark: the re-enqueue puts a new record with the same name
      in front, so the outcome of the upload lands on that new record and the
      older one keeps its Uploading mark after the upload has ended, whatever
      the outcome (unless it was the oldest of a full list and so evicted). */
  lemma RaceLeavesOldUploading(m: Manager, settings: Settings, now: Timestamp, uploaded: bool, i: nat)
    requires Consistent(m) && m.queue != []
    requires FirstNamed(m.recent, DisplayName(m.queue[0].path), i)
    ensures var begun := BeginUpload(m);
      var raced := Enqueue(begun.0, begun.1.path, now);
      var done := FinishUpload(raced, begun.1, settings, uploaded).next;
      && !done.isUploading
      && done.recent[0] == RecentUpload(DisplayName(m.queue[0].path), Outcome(m.queue[0], uploaded), now)
      && (i + 1 < MaxRecent ==> done.recent[i + 1] == m.recent[i].(status := Uploading))
  {
    var begun := BeginUpload(m);
    var head := m.queue[0];
    var name := DisplayName(head.path);
    assert !Queued(begun.0.queue, head.path) by {
      forall j | 0 <= j < |begun.0.queue|
        ensures begun.0.queue[j].path != head.path
      {
        assert begun.0.queue[j] == m.queue[j + 1];
      }
    }
    assert begun.0.recent == m.recent[i := m.recent[i].(status := Uploading)];
    var raced := Enqueue(begun.0, begun.1.path, now);
    assert raced.recent[0] == RecentUpload(name, Pending, now);
    var done := FinishUpload(raced, begun.1, settings, uploaded).next;
    assert done.recent == raced.recent[0 := raced.recent[0].(status := Outcome(head, uploaded))];
  }

  /** `f` applied `n` times. */
  function Iterate(f: Manager -> Manager, m: Manager, n: nat): Manager
    decreases n
  {
    if n == 0 then m else Iterate(f, f(m), n - 1)
  }

  /** Iterating `n + 1` times is iterating `n` times and then once more. */
  lemma {:induction false} IterateLast(f: Manager -> Manager, m: Manager, n: nat)
    ensures Iterate(f, m, n + 1) == f(Iterate(f, m, n))
    decreases n
  {
    if n > 0 {
      IterateLast(f, f(m), n - 1);
    }
  }

  /** One online iteration whose upload fails. */
  function FailingIteration(settings: Settings): Manager -> Manager {
    m => WorkerStep(m, settings, true, false).next
  }

  /** `n` consecutive online iterations whose uploads all fail. */
  function RunFailing(m: Manager, settings: Settings, n: nat): Manager {
    Iterate(FailingIteration(settings), m, n)
  }

  /** `f` puts a lone queued item below its retry budget back with one more
      retry. */
  ghost predicate RequeuesLone(f: Manager -> Manager) {
    forall x: Manager :: |x.queue| == 1 && x.queue[0].retries + 1 < MaxRetries ==>
      LoneItem(f(x), x.queue[0].path, x.queue[0].retries + 1)
  }

  /** The queue holds exactly one item, for `path` with `retries` retries. */
  ghost predicate LoneItem(m: Manager, path: Path, retries: nat) {
    |m.queue| == 1 && m.queue[0].path == path && m.queue[0].retries == retries
  }

  /** ... and marks its record, the `i`-th, Pending. */
  ghost predicate MarksLonePending(f: Manager -> Manager, i: nat) {
    forall x: Manager ::
      && |x.queue| == 1 && x.queue[0].retries + 1 < MaxRetries
      && FirstNamed(x.recent, DisplayName(x.queue[0].path), i)
      ==> f(x).recent == x.recent[i := x.recent[i].(status := Pending)]
  }

  lemma {:induction false} IterateRequeues(f: Manager -> Manager, m: Manager, n: nat)
    requires RequeuesLone(f)
    requires |m.queue| == 1 && m.queue[0].retries + n < MaxRetries
    ensures LoneItem(Iterate(f, m, n), m.queue[0].path, m.queue[0].retries + n)
    decreases n
  {
    if n > 0 {
      var m' := f(m);
      assert LoneItem(m', m.queue[0].path, m.queue[0].retries + 1);
      IterateRequeues(f, m', n - 1);
      assert Iterate(f, m, n) == Iterate(f, m', n - 1);
    }
  }

  lemma {:induction false} IteratePending(f: Manager -> Manager, m: Manager, n: nat, i: nat)
    requires RequeuesLone(f) && MarksLonePending(f, i)
    requires |m.queue| == 1 && m.queue[0].retries + n < MaxRetries
    requires FirstNamed(m.recent, DisplayName(m.queue[0].path), i)
    ensures n > 0 ==> Iterate(f, m, n).recent == m.recent[i := m.recent[i].(status := Pending)]
    ensures n == 0 ==> Iterate(f, m, n).recent == m.recent
    decreases n
  {
    if n > 0 {
      var m' := f(m);
      var updated := m.recent[i := m.recent[i].(status := Pending)];
      assert LoneItem(m', m.queue[0].path, m.queue[0].retries + 1);
      assert m'.recent == updated;
      assert FirstNamed(m'.recent, DisplayName(m'.queue[0].path), i);
      IteratePending(f, m', n - 1, i);
      assert Iterate(f, m, n) == Iterate(f, m', n - 1);
      assert updated[i := updated[i].(status := Pending)] == updated;
    }
  }

  /** A failing iteration on a lone queued item below its retry budget puts
      it back with one more retry. */
  lemma LoneRequeueQueue(m: Manager, settings: Settings)
    requires |m.queue| == 1 && m.queue[0].retries + 1 < MaxRetries
    ensures LoneItem(WorkerStep(m, settings, true, false).next, m.queue[0].path, m.queue[0].retries + 1)
  {
    assert m.queue[1..] == [];
    StepRequeues(m, settings);
  }

  /** ... and marks the item's record Pending. */
  lemma LoneRequeueRecent(m: Manager, settings: Settings, i: nat)
    requires |m.queue| == 1 && m.queue[0].retries + 1 < MaxRetries
    requires FirstNamed(m.recent, DisplayName(m.queue[0].path), i)
    ensures WorkerStep(m, settings, true, false).next.recent == m.recent[i := m.recent[i].(status := Pending)]
  {
    StepRecordsOutcome(m, settings, false);
  }

  lemma FailingIterationRequeues(settings: Settings, i: nat)
    ensures RequeuesLone(FailingIteration(settings))
    ensures MarksLonePending(FailingIteration(settings), i)
  {
    var f := FailingIteration(settings);
    forall x: Manager | |x.queue| == 1 && x.queue[0].retries + 1 < MaxRetries
      ensures LoneItem(f(x), x.queue[0].path, x.queue[0].retries + 1)
    {
      LoneRequeueQueue(x, settings);
    }
    forall x: Manager |
      && |x.queue| == 1 && x.queue[0].retries + 1 < MaxRetries
      && FirstNamed(x.recent, DisplayName(x.queue[0].path), i)
      ensures f(x).recent == x.recent[i := x.recent[i].(status := Pending)]
    {
      LoneRequeueRecent(x, settings, i);
    }
  }

  /** A lone queued file whose uploads keep failing is put back after each of
      its first nine failures, with its retry count equal to the failures so
      far. */
  lemma FailuresBelowBudgetRequeue(m: Manager, settings: Settings, n: nat)
    requires |m.queue| == 1 && m.queue[0].retries + n < MaxRetries
    ensures LoneItem(RunFailing(m, settings, n), m.queue[0].path, m.queue[0].retries + n)
  {
    FailingIterationRequeues(settings, 0);
    IterateRequeues(FailingIteration(settings), m, n);
  }

  /** Meanwhile its record (the most recent one with its name) shows Pending
      and every other record is left alone. */
  lemma FailuresBelowBudgetPending(m: Manager, settings: Settings, n: nat, i: nat)
    requires |m.queue| == 1 && m.queue[0].retries + n < MaxRetries && n > 0
    requires FirstNamed(m.recent, DisplayName(m.queue[0].path), i)
    ensures RunFailing(m, settings, n).recent == m.recent[i := m.recent[i].(status := Pending)]
  {
    FailingIterationRequeues(settings, i);
    IteratePending(FailingIteration(settings), m, n, i);
  }

  /** `f` drops a lone queued item on its last retry and marks its record,
      the `i`-th, Failed. */
  ghost predicate GivesUpLone(f: Manager -> Manager, i: nat) {
    forall x: Manager ::
      && |x.queue| == 1 && x.queue[0].retries + 1 == MaxRetries
      && FirstNamed(x.recent, DisplayName(x.queue[0].path), i)
      ==> f(x).queue == [] && f(x).recent == x.recent[i := x.recent[i].(status := Failed)]
  }

  lemma IterateGivesUp(f: Manager -> Manager, m: Manager, i: nat)
    requires RequeuesLone(f) && MarksLonePending(f, i) && GivesUpLone(f, i)
    requires |m.queue| == 1 && m.queue[0].retries == 0
    requires FirstNamed(m.recent, DisplayName(m.queue[0].path), i)
    ensures Iterate(f, m, MaxRetries).queue == []
    ensures Iterate(f, m, MaxRetries).recent == m.recent[i := m.recent[i].(status := Failed)]
  {
    var m9 := Iterate(f, m, MaxRetries - 1);
    var pending := m.recent[i := m.recent[i].(status := Pending)];
    assert LoneItem(m9, m.queue[0].path, MaxRetries - 1) by {
      IterateRequeues(f, m, MaxRetries - 1);
    }
    assert m9.recent == pending by {
      IteratePending(f, m, MaxRetries - 1, i);
    }
    assert FirstNamed(m9.recent, DisplayName(m9.queue[0].path), i);
    assert pending[i := pending[i].(status := Failed)] == m.recent[i := m.recent[i].(status := Failed)];
    IterateLast(f, m, MaxRetries - 1);
  }

  /** The failure that exhausts the budget of a lone queued item. */
  lemma LoneGivesUp(m: Manager, settings: Settings, i: nat)
    requires |m.queue| == 1 && m.queue[0].retries + 1 == MaxRetries
    requires FirstNamed(m.recent, DisplayName(m.queue[0].path), i)
    ensures WorkerStep(m, settings, true, false).next.queue == []
    ensures WorkerStep(m, settings, true, false).next.recent == m.recent[i := m.recent[i].(status := Failed)]
  {
    StepGivesUp(m, settings);
    StepRecordsOutcome(m, settings, false);
  }

  lemma FailingIterationGivesUp(settings: Settings, i: nat)
    ensures GivesUpLone(FailingIteration(settings), i)
  {
    var f := FailingIteration(settings);
    forall x: Manager |
      && |x.queue| == 1 && x.queue[0].retries + 1 == MaxRetries
      && FirstNamed(x.recent, DisplayName(x.queue[0].path), i)
      ensures f(x).queue == [] && f(x).recent == x.recent[i := x.recent[i].(status := Failed)]
    {
      LoneGivesUp(x, settings, i);
    }
  }

  /** The tenth failure of the same file drops it for good: the queue is
      empty and its record shows Failed; every other record is left alone. */
  lemma TenthFailureDrops(m: Manager, settings: Settings, i: nat)
    requires |m.queue| == 1 && m.queue[0].retries == 0
    requires FirstNamed(m.recent, DisplayName(m.queue[0].path), i)
    ensures RunFailing(m, settings, MaxRetries).queue == []
    ensures RunFailing(m, settings, MaxRetries).recent == m.recent[i := m.recent[i].(status := Failed)]
  {
    FailingIterationRequeues(settings, i);
    FailingIterationGivesUp(settings, i);
    IterateGivesUp(FailingIteration(settings), m, i);
  }

  /** One online iteration whose upload succeeds. */
  function SucceedingIteration(settings: Settings): Manager -> Iteration {
    m => WorkerStep(m, settings, true, true)
  }

  /** `g` uploads a lone queued item: the queue empties, its record, the
      `i`-th, shows Success and the file is disposed of. */
  ghost predicate SucceedsLone(g: Manager -> Iteration, settings: Settings, i: nat) {
    forall x: Manager ::
      && |x.queue| == 1
      && FirstNamed(x.recent, DisplayName(x.queue[0].path), i)
      ==> && g(x).next.queue == []
          && g(x).next.recent == x.recent[i := x.recent[i].(status := Success)]
          && g(x).action == Disposal(settings, x.queue[0].path)
  }

  lemma IterateThenSucceed(f: Manager -> Manager, g: Manager -> Iteration, settings: Settings, m: Manager, n: nat, i: nat)
    requires RequeuesLone(f) && MarksLonePending(f, i) && SucceedsLone(g, settings, i)
    requires |m.queue| == 1 && m.queue[0].retries + n < MaxRetries
    requires FirstNamed(m.recent, DisplayName(m.queue[0].path), i)
    ensures g(Iterate(f, m, n)).next.queue == []
    ensures g(Iterate(f, m, n)).next.recent == m.recent[i := m.recent[i].(status := Success)]
    ensures g(Iterate(f, m, n)).action == Disposal(settings, m.queue[0].path)
  {
    var mn := Iterate(f, m, n);
    assert LoneItem(mn, m.queue[0].path, m.queue[0].retries + n) by {
      IterateRequeues(f, m, n);
    }
    if n > 0 {
      var pending := m.recent[i := m.recent[i].(status := Pending)];
      assert mn.recent == pending by {
        IteratePending(f, m, n, i);
      }
      assert pending[i := pending[i].(status := Success)] == m.recent[i := m.recent[i].(status := Success)];
    }
    assert FirstNamed(mn.recent, DisplayName(mn.queue[0].path), i);
  }

  /** A successful upload of a lone queued item. */
  lemma LoneSucceeds(m: Manager, settings: Settings, i: nat)
    requires |m.queue| == 1
    requires FirstNamed(m.recent, DisplayName(m.queue[0].path), i)
    ensures WorkerStep(m, settings, true, true).next.queue == []
    ensures WorkerStep(m, settings, true, true).next.recent == m.recent[i := m.recent[i].(status := Success)]
    ensures WorkerStep(m, settings, true, true).action == Disposal(settings, m.queue[0].path)
  {
    StepSucceeds(m, settings);
    StepRecordsOutcome(m, settings, true);
  }

  lemma SucceedingIterationSucceeds(settings: Settings, i: nat)
    ensures SucceedsLone(SucceedingIteration(settings), settings, i)
  {
    var g := SucceedingIteration(settings);
    forall x: Manager |
      && |x.queue| == 1
      && FirstNamed(x.recent, DisplayName(x.queue[0].path), i)
      ensures && g(x).next.queue == []
              && g(x).next.recent == x.recent[i := x.recent[i].(status := Success)]
              && g(x).action == Disposal(settings, x.queue[0].path)
    {
      LoneSucceeds(x, settings, i);
    }
  }

  /** A file that fails fewer than ten times and then uploads ends with a
      Success record, leaves the queue, and is disposed of; every other
      record is left alone. */
  lemma SuccessAfterFailures(m: Manager, settings: Settings, n: nat, i: nat)
    requires |m.queue| == 1 && m.queue[0].retries == 0 && n < MaxRetries
    requires FirstNamed(m.recent, DisplayName(m.queue[0].path), i)
    ensures var last := WorkerStep(RunFailing(m, settings, n), settings, true, true);
      && last.next.queue == []
      && last.next.recent == m.recent[i := m.recent[i].(status := Success)]
      && last.action == Disposal(settings, m.queue[0].path)
  {
    FailingIterationRequeues(settings, i);
    SucceedingIterationSucceeds(settings, i);
    IterateThenSucceed(FailingIteration(settings), SucceedingIteration(settings), settings, m, n, i);
  }

  /** A file moved to the archive folder after its upload is never a
      candidate for the watcher or the startup scan again. */
  lemma ArchivedNeverCandidate(m: Manager, settings: Settings, online: bool, uploaded: bool, isDir: bool)
    requires WorkerStep(m, settings, online, uploaded).action.MoveFile?
    ensures Watcher.Ignored(WorkerStep(m, settings, online, uploaded).action.to, isDir)
  {
  }

  /** Records are found by name: when a second file with the same name but
      another path is enqueued while the first waits for its last retry, the
      first file's final failure marks the second file's (newer) record
      Failed, although the second file is still queued and untouched. */
  lemma NameCollisionMislabels(m: Manager, settings: Settings, other: Path, now: Timestamp)
    requires Consistent(m) && |m.queue| == 1 && m.queue[0].retries == MaxRetries - 1
    requires other != m.queue[0].path && DisplayName(other) == DisplayName(m.queue[0].path)
    ensures var m2 := Enqueue(m, other, now);
      var r := WorkerStep(m2, settings, true, false).next;
      && r.queue == [QueueItem(other, 0)]
      && r.recent[0] == RecentUpload(DisplayName(other), Failed, now)
  {
    var m2 := Enqueue(m, other, now);
    assert !Queued(m.queue, other);
    assert FirstNamed(m2.recent, DisplayName(m.queue[0].path), 0);
  }
}
